=== FILE: README.md ===
# Search-graph construction and A* search for a chip layout, in Dafny

This project models the routing core of a chip-layout tool. The tool reads a layout of
rectangular components (lines such as `d1 20 20 15 15`: a name whose first letter is
the component class, then centre x, centre y, height and length). From them it builds
obstacle polygons and closes the list with the 70 x 70 chip boundary. It writes the
triangulator's constraint file (vertex list and 4-cycle edge index pairs). Given the
triangulation, it then builds a search graph:

- Nodes are the triangle-side midpoints that do not coincide with an obstacle- or
  boundary-side midpoint.
- Edges are medial segments whose two ends are both nodes.

A* search runs over this graph.

The model is split into modules that follow the program's files:

- `Outcomes` (`outcomes.dfy`) holds `Option`, `Result` and the Python exceptions the
  core can raise (`IndexError`, `ValueError`).
- `Util` (`util.dfy`) covers `src/util.py`. Points have `real` coordinates, and
  midpoints are exact. It models Python's `int()` on decimal strings. Each component
  becomes its four rectangle corners. `cal_four_verticles_v2` becomes a list
  conversion that raises the first component's exception.
- `Dataset` (`dataset.dfy`) covers `src/Dataset.py` and `model/Dataset.py`:
  - `get_data`'s classification loop over already-split lines, on an instance whose
    lists persist;
  - `process_data2list`;
  - the counts, vertices and 0-based index pairs that `write_fixed_data` writes.
- `SearchGraph` (`cdt_graph.dfy`) covers `src/CDT_Graph.py`. The networkx graph is a
  node set plus a set of unordered edges; a self-loop is the one-element set. The
  model follows networkx's own behaviour:
  - `add_edges_from` also adds the endpoints as nodes;
  - `remove_nodes_from` drops incident edges and skips missing nodes;
  - `neighbors` raises on a missing node.
- `AStar` (`astar.dfy`) covers `src/A-star.py`:
  - the priority queue, as the multiset of stored `(priority, point)` entries ordered
    like Python tuples;
  - the Manhattan heuristic;
  - `a_star_search` as a method with loop invariants over `came_from` and
    `cost_so_far`. The method also returns, as ghost values, the course of the
    search (a `Trace`): the point each turn pops, and the frontier and costs before
    and after each turn. Each pop takes the least entry of the frontier the previous
    turn left. Expanding a point leaves every cost fixed. It also fixes which entries
    the frontier holds. So the course does not depend on the order in which the
    neighbours are relaxed (`AStar.TracesAgree`).

  The Euclidean edge length is a function parameter, assumed non-negative and
  symmetric.

Where a line of the layout file has an empty first field, `get_data` raises
IndexError at `lin[0][0]`, and the lines routed before it stay appended. This includes
the empty last line that a trailing newline produces. The model keeps that behaviour:
`Dataset.Load` returns `Raised(IndexError, partial lists)`.

The code's `add_startarget_to_SG` is an empty stub. It adds no terminal-connector
edges, so the model adds none either.

## Model

| member | source | states |
|---|---|---|
| Util.Midpoint | src/util.py:17-21 | the midpoint is equally far, in x and in y, from both points |
| Util.MidpointOfPair | src/util.py:17-21 | succeeds iff at least two points are given; the result does not depend on the order of the first two points; otherwise IndexError |
| Util.ParseInt | src/util.py:41-42 | `int()` succeeds exactly on an optional sign followed by one or more ASCII digits; the sign decides the sign of the value |
| Util.ParseShow | src/util.py:41-42 | `int()` reads back every integer written in decimal |
| Util.ParseFields | src/util.py:47-50 | the first n fields convert iff each exists and is an integer literal, giving their values in order; otherwise the exception of the first failing field (IndexError when missing, ValueError when not an integer) |
| Util.CompoCenter | src/util.py:40-43 | the centre exists iff fields 0 and 1 are integer literals, and it is their values; otherwise the exception of the first failing field: IndexError when it is missing, ValueError when it is no integer |
| Util.RectCorners | src/util.py:53-73 | four corners: the left ones share x, the right ones share x, the top ones share y, the bottom ones share y; the x-span is the length, the y-span the height, and the corners' mean is the centre |
| Util.OnlyOneVertices | src/util.py:46-73 | succeeds iff fields 0-3 are integer literals, then gives four corners; otherwise the first failing field's exception |
| Util.OnlyOneVerticesCorners | src/util.py:46-73 | the corners are those of the rectangle with the parsed centre, height and length |
| Util.CornersMeanIsCenter | src/util.py:40-73 | the mean of a component's corners is the centre `get_compo_center` returns |
| Util.FourVertices | src/util.py:117-151 | on success there is one corner list per component |
| Util.FourVerticesConverts | src/util.py:117-151 | succeeds iff every component converts, and entry i is then the corners of component i |
| Util.FourVerticesOk | src/util.py:117-151 | succeeds iff every component converts |
| Util.FourVerticesEntries | src/util.py:124-128 | on success, entry i is the corners of component i |
| Util.FourVerticesFirstFailure | src/util.py:124-128 | a failure carries the exception of the first component that fails, all earlier ones converting |
| Dataset.FirstNameless | src/Dataset.py:50-51 | the position of the first line with an empty or missing name: every earlier line has a name |
| Dataset.RoutedConcat | src/Dataset.py:50-59 | routing keeps line order: the lines of a+b route as those of a, then those of b |
| Dataset.RoutedMembership | src/Dataset.py:50-59 | a field list lands in list c iff some line named with c carries it after its name |
| Dataset.RoutingPartitionsLines | src/Dataset.py:50-59 | every named line goes to exactly one of d, f, w or is discarded |
| Dataset.StepRoutes | src/Dataset.py:51-59 | one loop iteration appends what routing the one line gives |
| Dataset.Load | src/Dataset.py:50-59 | all lines named: every line routed, appended after the existing lists; otherwise IndexError with the lines before the first nameless one appended (the loop in model/Dataset.py:40-49 is the same) |
| Dataset.LoadAllNamed | src/Dataset.py:50-60 | with all lines named, the call returns the lists with all lines routed |
| Dataset.LoadAccumulates | src/Dataset.py:27-59 | the lists are instance state: a second call appends every routed line again (so too in model/Dataset.py:17-49) |
| Dataset.LoadNotIdempotent | src/Dataset.py:27-59 | once one line is named with d, f or w, a second call changes the lists |
| Dataset.LoadFresh | src/Dataset.py:25-60 | the first call on a new instance, with all lines named, returns exactly the routed lines, since the lists start empty |
| Dataset.StepAll | src/Dataset.py:50-59 | after a named first line, routing that line and then the others is routing them all |
| Dataset.StepPrefix | src/Dataset.py:50-59 | after a named first line, routing it and then the others up to the first nameless one is routing the whole prefix before the raise |
| Dataset.ProcessData2List | src/Dataset.py:73-83 | raises what `get_data` raises; otherwise succeeds iff every component converts, and then the list holds the d, f, w corners in order and the chip boundary last, all quadrilaterals; a conversion failure is the exception of the first failing d component, else of the first failing f, else of the first failing w |
| Dataset.Corners | src/Dataset.py:79-82 | succeeds iff every d, f and w component converts; the layout is that of `CornerList`, all quadrilaterals; on failure the exception of the first failing d component, else of the first failing f, else of the first failing w |
| Dataset.CornerListOfParts | src/Dataset.py:77-83 | the concatenation has length \|d\|+\|f\|+\|w\|+1, with each component's corners at its offset and the boundary last |
| Dataset.QuadsOfParts | src/Dataset.py:79-82 | quadrilaterals followed by the chip boundary are quadrilaterals |
| Dataset.IndexPairs | src/Dataset.py:99-107 | 4 pairs per polygon; each pair is increasing and lies inside its own polygon's 1-based block of four |
| Dataset.IndexPairsAt | src/Dataset.py:101-107 | pair k of polygon idx is `index_pair[k]` shifted by 4·idx |
| Dataset.QuadPairIsSide | src/Dataset.py:101 | `index_pair[k]` made 0-based joins vertex k and vertex (k+1) mod 4 |
| Dataset.WrittenPairIsSide | src/Dataset.py:101-132 | written edge 4·idx+k joins vertices 4·idx+k and 4·idx+(k+1) mod 4, in either order |
| Dataset.Flatten | src/Dataset.py:127-129 | the written vertex list has as many entries as the polygons have vertices together |
| Dataset.FlattenQuads | src/Dataset.py:127-129 | for four-vertex polygons, vertex k of polygon i is written at position 4i+k |
| Dataset.WriteFixedData | src/Dataset.py:116-132 | vertex count = sum of polygon sizes = vertices written; edge count = 4·polygons = pairs written; every written edge is a side of its polygon's 4-cycle |
| Dataset.ConstraintEdgesAreSides | src/Dataset.py:117-132 | for quadrilaterals every written index is in [0, vertex count), and edge 4·idx+k joins corners k and (k+1) mod 4 of polygon idx |
| Dataset.QuadCorners | src/Dataset.py:127-129 | corners k and (k+1) mod 4 of quadrilateral idx are written at positions 4·idx+k and 4·idx+(k+1) mod 4 |
| Dataset.JoinedEnds | src/Dataset.py:130-132 | an index pair joining the positions of two points joins those points and has their midpoint |
| SearchGraph.TriMidpoints | src/CDT_Graph.py:176-186 | 3·\|tri\| points; entries 3i..3i+2 are the side midpoints of triangle i |
| SearchGraph.TriNeutralityEdges | src/CDT_Graph.py:139-151 | one list per triangle, equal to that triangle's block of `calculate_tri_midpoint` |
| SearchGraph.BoundaryMidpoints | src/CDT_Graph.py:160-167 | as many midpoints as vertices; each polygon's block, at its offset, is its side midpoints in polygon order |
| SearchGraph.BoundaryMidpointMembership | src/CDT_Graph.py:160-167 | a point is a boundary midpoint iff it is the midpoint of some side of some constraint polygon |
| SearchGraph.ExistingNodes | src/CDT_Graph.py:69-71 | keeps exactly the listed points that are nodes |
| SearchGraph.RemoveExistingOnly | src/CDT_Graph.py:69-72 | removing only the existing boundary midpoints has the effect of removing them all, and the graph stays well formed |
| SearchGraph.AddMidpointsToSG | src/CDT_Graph.py:57-72 | a point is a node iff it was a node or is a triangle midpoint, and is no boundary midpoint; only edges avoiding boundary midpoints stay; the graph stays well formed |
| SearchGraph.FreshMidpointNodes | src/CDT_Graph.py:57-72 | on a fresh graph the nodes are the triangle midpoints minus the boundary midpoints, with no edges |
| SearchGraph.NoConstraintKeepsAllMidpoints | src/CDT_Graph.py:65-72 | with no constraint polygons every triangle midpoint is a node |
| SearchGraph.FilterValidNeutralityEdges | src/CDT_Graph.py:119-130 | emits (p1, p2) iff they are cyclically consecutive in one list and both are nodes; at most one edge per list entry |
| SearchGraph.AddEdgesToSG | src/CDT_Graph.py:84-95 | nodes unchanged; an edge is present iff it was or it is a medial edge of a triangle with both ends nodes; well formed |
| SearchGraph.AddNodePairs | src/CDT_Graph.py:93 | adding edges between existing nodes adds no node |
| SearchGraph.AddEdgesIdempotent | src/CDT_Graph.py:93 | adding the medial edges a second time changes nothing |
| SearchGraph.MedialEdgesStayInTriangle | src/CDT_Graph.py:119-130 | every medial edge that `add_egdes_to_SG` adds joins two nodes that are midpoints of one triangle |
| SearchGraph.BuildSearchGraph | src/CDT_Graph.py:45-95 | the built graph is well formed; its nodes are the triangle midpoints minus the boundary midpoints, and its edges exactly the medial edges between nodes |
| SearchGraph.WrittenSideMidpoint | src/CDT_Graph.py:160-167 | written edge 4·idx+k is in range and its midpoint is the midpoint of side k of polygon idx, a boundary midpoint |
| SearchGraph.ConstraintEdgesMatchBoundaryMidpoints | src/CDT_Graph.py:160-167 | the midpoint of every written constraint edge is a boundary midpoint, and every boundary midpoint is the midpoint of some written edge |
| AStar.EntryOrderIsTotal | src/A-star.py:27-30 | the tuple order is reflexive, total, antisymmetric and transitive |
| AStar.IsEmpty | src/A-star.py:23-24 | the queue is empty iff no point is queued |
| AStar.Put | src/A-star.py:26-27 | the stored entries grow by exactly (priority, point) |
| AStar.Get | src/A-star.py:23-30 | IndexError iff empty; otherwise the popped entry was stored, is smallest in tuple order, and exactly it is removed |
| AStar.GetInOrder | src/A-star.py:26-30 | two successive pops come out in non-decreasing tuple order |
| AStar.Heuristic | src/A-star.py:33-38 | non-negative, and zero exactly for equal points |
| AStar.HeuristicIsMetric | src/A-star.py:33-38 | symmetric and obeys the triangle inequality |
| AStar.Relax | src/A-star.py:60-65 | the neighbour's cost is at most the relaxed cost and never grows; other entries are unchanged; the state changes iff the neighbour is unreached or the new cost is strictly lower; on update the cost equals the current cost plus the step, the predecessor is the current point, and one entry with cost plus heuristic is queued |
| AStar.RelaxKeepsTree | src/A-star.py:59-65 | relaxation keeps equal key sets, start at cost 0 with no predecessor, costs non-negative, and each predecessor a reached neighbour with cost at least its own plus the step |
| AStar.RelaxKeepsFrontier | src/A-star.py:62-64 | every queued point stays reached, and is the start or a graph node |
| AStar.RelaxExtendsWalks | src/A-star.py:60-65 | every reached cost stays the length of a walk from the start |
| AStar.PopKeepsClosed | src/A-star.py:53-54 | after a pop, every reached node except the popped one is still queued or has all its neighbours reached |
| AStar.RelaxKeepsClosed | src/A-star.py:60-65 | relaxing keeps every reached node reached and every queued point queued, and the neighbour ends up reached |
| AStar.ClosedSetHoldsWalks | src/A-star.py:53-65 | a set holding the start and every neighbour of its members holds the end of every walk from the start |
| AStar.RelaxKeepsCosts | src/A-star.py:59-65 | one more relaxed neighbour: every cost is still its cost before the loop, or the smaller of that and the cost through the current node for a neighbour already handled |
| AStar.RelaxKeepsExpanding | src/A-star.py:59-65 | one relaxation keeps the search invariants and the cost bookkeeping of the neighbour loop |
| AStar.GetByContents | src/A-star.py:29-30 | queues storing the same entries pop the same entry and keep the same remaining entries, whatever their layout |
| AStar.RelaxKeepsQueue | src/A-star.py:61-64 | relaxing one more neighbour adds one frontier entry (new cost plus heuristic) exactly when the neighbour is unreached or strictly improved on its cost before the loop |
| AStar.RelaxStep | src/A-star.py:60-65 | the loop body over one neighbour keeps the neighbour-loop invariant with that neighbour handled: each handled neighbour's cost is the smaller of its cost before the loop and the cost through the current node, every other cost is unchanged; the frontier holds its entries before the loop plus one entry per handled neighbour that improved |
| AStar.RelaxAll | src/A-star.py:59-65 | the neighbour loop over any set of neighbours keeps the invariant with all of them handled. Each of their costs ends as the smaller of the old cost and the cost through the current node. The frontier gains exactly one entry per improved neighbour |
| AStar.ExpandingDone | src/A-star.py:59-65 | once every neighbour is handled, all are reached at cost at most the current cost plus the step, no cost grew, and the closed-set invariant holds again |
| AStar.Expand | src/A-star.py:59-65 | after the neighbour loop every neighbour of the expanded node is reached at cost at most its cost plus the step; every other cost is unchanged, every handled cost is the minimum of its old cost and the cost through the node, none grew; the frontier holds its old entries plus exactly one (cost plus heuristic, neighbour) entry per neighbour that was unreached or improved; nothing reached is lost, and the search invariants hold |
| AStar.ExpandKeepsPops | src/A-star.py:53-65 | a popped point joins the popped points: each is reached, and each that is not the goal has all its neighbours reached |
| AStar.InitialSearching | src/A-star.py:46-51 | before the loop the start alone is queued at priority 0, reached at cost 0 by the one-point walk with no predecessor, and the search invariants hold |
| AStar.InitialPop | src/A-star.py:47-54 | the first pop is the start |
| AStar.TraceExtend | src/A-star.py:53-65 | a trace extended by one more turn from its last frontier and costs is a trace |
| AStar.Turn | src/A-star.py:53-65 | one loop turn pops the least entry of the frontier; on the goal, or on a point that is not a node, the maps stay as they were; any other point is expanded, after which every reached point is queued or has all its neighbours reached; the trace grows by this turn and the search invariants hold |
| AStar.Run | src/A-star.py:46-65 | the loop stops on popping the goal, or a non-node (only the start can be one), and then this is the last pop and no earlier pop was either; otherwise it stops on an empty frontier or after `fuel` pops, every pop having been expanded; the first pop is the start; when the start is the goal or no node, the first pop stops the loop with the one-entry maps |
| AStar.Search | src/A-star.py:41-67 | the pops follow a trace from the start alone. Every pop but the last was a node other than the goal. `Finished` means the last pop was the goal or the frontier left was empty; `OutOfFuel` means `fuel` pops with a non-empty frontier left; `NotInGraph` names the last pop. The returned costs are those the trace ends with. Every popped point is reached, and every popped non-goal point has all its neighbours reached. The invariants above hold on return, and every cost is the length of a walk from the start. A search finished on an empty frontier has every neighbour of every reached node reached, so in a well-formed graph it reaches every goal connected to the start. With fuel, start = goal returns {start: None}, {start: 0}. Only a start that is not a node raises, and with fuel it always does when start ≠ goal |
| AStar.PopStepsAgree | src/A-star.py:53-65 | one turn from frontiers holding the same entries and from the same costs pops the same point, leaves the same costs and leaves frontiers holding the same entries |
| AStar.CostsSoFarUnique | src/A-star.py:59-65 | the costs after a neighbour loop are determined by the costs before it |
| AStar.QueueSoFarUnique | src/A-star.py:59-65 | the entries queued by a neighbour loop are determined by the entries and costs before it, whatever the order of the neighbours |
| AStar.TracesAgree | src/A-star.py:53-65 | two traces of the same search agree on every pop and every cost, and their frontiers hold the same entries: the neighbour order does not change the course of the search |

## Left out

- File reading and writing: `read_input_file` and opening the layout file. Also the
  processed-file name, its existence check and its writing. `get_data` takes the lines
  already split at newlines and tabs. `write_fixed_data` returns what it would write.
- The `SG_graph` constructor's file loads. `points`, `tri` and `constraint` are
  parameters of the builder, and `process_data2array`'s numpy array is the list of
  polygons.
- Out-of-range triangle indices: every builder member requires
  `SearchGraph.ValidTriangles`, that is, that each triangle's indices lie inside
  `points`. The IndexError numpy raises at `points[t]` (src/CDT_Graph.py:141 and 178)
  for an index past the end is not modelled. The caller passes only the input
  vertices, while the triangulator may add intersection vertices, so this is an
  assumption and not a guarantee.
- The foreign triangulator (`src/CDT.py`, `model/CDT.py`, `src/testCDT.py`). Its
  output appears only as the `points` and `tri` parameters.
- Plotting: `draw_midpoint_and_neutrality` and `dispaly_cdt`. Also the matplotlib `Path`
  wrapper in `cal_four_verticles`; `FourVertices` covers its vertices.
- `add_startarget_to_SG`: an empty stub, so nothing is added for start or target.
- The `__main__` drivers of the source files.
- Floating point: coordinates, midpoints and costs are exact reals. The source's float
  midpoints can differ in the last bit where the model's coincide. The Euclidean
  distance is a parameter, because Dafny has no square root.
- AStar.Search: takes a `fuel` bound on the number of pops and returns `OutOfFuel` only
  after exactly `fuel` pops, each of them expanded. A run that ends, in the source,
  within `fuel` pops is modelled exactly. Termination and optimality are not proved.
- AStar.Search: the order of `graph.neighbors` is networkx's insertion order, which the
  model does not track. Each neighbour is picked arbitrarily from the ones still
  unvisited. The trace records the frontier's entries and the costs at each turn, but
  not `came_from`. So `AStar.TracesAgree` does not state that `came_from` is the same
  under every neighbour order.
- AStar.Get: heapq's array layout is not modelled, only which entries are stored.
- Util.ParseInt: leading and trailing whitespace, `_` separators and non-ASCII digits,
  which Python's `int()` also accepts, are not modelled. Such fields are treated as
  ValueError.
- Util.ParseInt: Python 3.11 and later refuse, with ValueError, a decimal literal of
  more than 4300 digits (the default `sys.set_int_max_str_digits` limit). The model
  parses a literal of any length, and `Util.ParseShow` reads back every integer.
- Util.OnlyOneVertices: `length / 2` and `height / 2` are true divisions and turn
  their result into a float. The sums with the centre do the same. Either raises
  OverflowError for an operand beyond float range (about 1.8e308). The model's
  `Outcomes` exceptions include no OverflowError, and its corners are exact reals. So
  the iffs of `Util.OnlyOneVertices`, `Util.FourVerticesConverts` and
  `Util.FourVerticesOk` speak only of fields within float range. The same
  OverflowError in `cal_four_verticles_v2` (src/util.py:131-142) is not modelled
  either.
- Util.FourVertices: its own contract states only the length. The content and the
  error are stated by `Util.FourVerticesConverts` and `Util.FourVerticesFirstFailure`.

=== FILE: astar.dfy ===
/** The A* search over the search graph (src/A-star.py): a priority queue of
    (priority, point) entries, the Manhattan heuristic, and the search loop that fills the
    predecessor map `came_from` and the cost map `cost_so_far`. Edge lengths come from a
    distance function that is only assumed non-negative and symmetric. */
module AStar {
  import opened Outcomes
  import opened Util
  import opened SearchGraph

  // ---------------------------------------------------------------------------
  // PriorityQueue
  // ---------------------------------------------------------------------------

  /** A queue entry `(priority, point)`, as `put` hands it to heapq. */
  datatype Entry = Entry(priority: real, point: Point)

  /** Python's order on `(priority, (x, y))` tuples: by priority, then by x, then by y. */
  predicate EntryLeq(a: Entry, b: Entry) {
    || a.priority < b.priority
    || (a.priority == b.priority && a.point.x < b.point.x)
    || (a.priority == b.priority && a.point.x == b.point.x && a.point.y <= b.point.y)
  }

  /** The tuple order is a total order on entries, so the smallest stored entry is
      determined: priority ties are broken by the point. */
  lemma EntryOrderIsTotal(a: Entry, b: Entry, c: Entry)
    ensures EntryLeq(a, a)
    ensures EntryLeq(a, b) || EntryLeq(b, a)
    ensures EntryLeq(a, b) && EntryLeq(b, a) ==> a == b
    ensures EntryLeq(a, b) && EntryLeq(b, c) ==> EntryLeq(a, c)
  {
  }

  /** A `PriorityQueue`: the entries it stores. Which entries are stored is modelled;
      heapq's array layout is not. */
  datatype Queue = Queue(entries: seq<Entry>)

  const EmptyQueue := Queue([])

  /** `empty()`: nothing is stored. */
  function IsEmpty(q: Queue): (b: bool)
    ensures b <==> QueuedPoints(q) == {}
  {
    assert |q.entries| > 0 ==> q.entries[0].point in QueuedPoints(q);
    |q.entries| == 0
  }

  /** `put(point, priority)`: stores one more entry (priority, point). */
  function Put(q: Queue, point: Point, priority: real): (r: Queue)
    ensures multiset(r.entries) == multiset(q.entries) + multiset{Entry(priority, point)}
  {
    Queue(q.entries + [Entry(priority, point)])
  }

  /** The position of a smallest entry. */
  function MinIndex(es: seq<Entry>): (k: nat)
    requires |es| > 0
    ensures k < |es| && forall i :: 0 <= i < |es| ==> EntryLeq(es[k], es[i])
  {
    if |es| == 1 then 0
    else
      var k := MinIndex(es[1..]) + 1;
      assert forall i :: 1 <= i < |es| ==> es[i] == es[1..][i - 1];
      if EntryLeq(es[0], es[k]) then 0 else k
  }

  /** `get()` together with the entry it pops: removes and returns the stored entry that
      is smallest in tuple order; on an empty queue `heappop` raises IndexError. */
  function Get(q: Queue): (r: Result<(Entry, Queue)>)
    ensures r.Err? <==> IsEmpty(q)
    ensures r.Err? ==> r.error == IndexError
    ensures r.Ok? ==> (
      && r.value.0 in q.entries
      && multiset(r.value.1.entries) + multiset{r.value.0} == multiset(q.entries)
      && forall x :: x in q.entries ==> EntryLeq(r.value.0, x))
  {
    if IsEmpty(q) then Err(IndexError)
    else
      var k := MinIndex(q.entries);
      var rest := q.entries[..k] + q.entries[k + 1..];
      assert q.entries == q.entries[..k] + [q.entries[k]] + q.entries[k + 1..];
      Ok((q.entries[k], Queue(rest)))
  }

  /** Two pops in a row come out in tuple order: the second entry popped is never
      smaller than the first. */
  lemma GetInOrder(q: Queue)
    requires |q.entries| >= 2
    ensures Get(q).Ok? && Get(Get(q).value.1).Ok?
    ensures EntryLeq(Get(q).value.0, Get(Get(q).value.1).value.0)
  {
  }

  /** Which entry `get()` pops depends only on which entries are stored, not on their
      layout: two queues storing the same entries pop the same entry and keep the same
      rest. */
  lemma GetByContents(q1: Queue, q2: Queue)
    requires multiset(q1.entries) == multiset(q2.entries)
    ensures Get(q1).Ok? <==> Get(q2).Ok?
    ensures Get(q1).Ok? ==> Get(q1).value.0 == Get(q2).value.0
    ensures Get(q1).Ok? ==>
      multiset(Get(q1).value.1.entries) == multiset(Get(q2).value.1.entries)
  {
    if Get(q1).Ok? {
      var a, b := Get(q1).value.0, Get(q2).value.0;
      assert a in multiset(q2.entries) && b in multiset(q1.entries);
      EntryOrderIsTotal(a, b, b);
      var m1, m2 := multiset(Get(q1).value.1.entries), multiset(Get(q2).value.1.entries);
      forall x
        ensures m1[x] == m2[x]
      {
        assert (m1 + multiset{a})[x] == (m2 + multiset{b})[x];
      }
    }
  }

  // ---------------------------------------------------------------------------
  // heuristic
  // ---------------------------------------------------------------------------

  function Abs(x: real): real {
    if x < 0.0 then -x else x
  }

  /** `heuristic`: the Manhattan distance between two points. It is zero exactly at
      equal points and positive elsewhere. */
  function Heuristic(a: Point, b: Point): (h: real)
    ensures h >= 0.0
    ensures h == 0.0 <==> a == b
  {
    Abs(a.x - b.x) + Abs(a.y - b.y)
  }

  /** The Manhattan distance is symmetric and obeys the triangle inequality. */
  lemma HeuristicIsMetric(a: Point, b: Point, c: Point)
    ensures Heuristic(a, b) == Heuristic(b, a)
    ensures Heuristic(a, c) <= Heuristic(a, b) + Heuristic(b, c)
  {
  }

  // ---------------------------------------------------------------------------
  // Walks and what the search keeps
  // ---------------------------------------------------------------------------

  /** What the search assumes of scipy's `euclidean`: non-negative and symmetric. */
  ghost predicate IsDistance(dist: (Point, Point) -> real) {
    forall a, b :: dist(a, b) >= 0.0 && dist(a, b) == dist(b, a)
  }

  /** A walk: a non-empty point sequence whose consecutive points are joined by edges. */
  ghost predicate IsWalk(g: Graph, w: seq<Point>) {
    |w| >= 1 && forall i :: 0 <= i < |w| - 1 ==> Edge(w[i], w[i + 1]) in g.edges
  }

  /** The summed lengths of a walk's steps. */
  function WalkLength(dist: (Point, Point) -> real, w: seq<Point>): real {
    if |w| <= 1 then 0.0 else WalkLength(dist, w[..|w| - 1]) + dist(w[|w| - 2], w[|w| - 1])
  }

  /** `w` is a walk from `start` to `n` of length `c`. */
  ghost predicate WalkTo(g: Graph, dist: (Point, Point) -> real, start: Point, n: Point,
                         w: seq<Point>, c: real) {
    IsWalk(g, w) && w[0] == start && w[|w| - 1] == n && WalkLength(dist, w) == c
  }

  /** Some walk from `start` to `n` has length `c`. */
  ghost predicate ReachedBy(g: Graph, dist: (Point, Point) -> real, start: Point, n: Point, c: real) {
    exists w :: WalkTo(g, dist, start, n, w, c)
  }

  /** The predecessor of the reached node `n` is a reached node and a graph neighbour of
      `n`, and `n` costs at least as much as its predecessor plus the step between them. */
  predicate PredecessorOk(g: Graph, dist: (Point, Point) -> real,
                          cameFrom: map<Point, Option<Point>>, cost: map<Point, real>, n: Point)
    requires n in cameFrom && n in cost
  {
    && cameFrom[n].Some?
    && var p := cameFrom[n].value;
    && p in cost && p in g.nodes && n in g.nodes && Edge(p, n) in g.edges
    && cost[n] >= cost[p] + dist(p, n)
  }

  /** The invariant of the two maps: equal key sets; the start is reached at cost 0 with
      no predecessor; every cost is non-negative; every other reached node has a good
      predecessor. */
  predicate SearchTree(g: Graph, dist: (Point, Point) -> real, start: Point,
                       cameFrom: map<Point, Option<Point>>, cost: map<Point, real>)
  {
    && cameFrom.Keys == cost.Keys
    && start in cost && cameFrom[start] == None && cost[start] == 0.0
    && (forall n :: n in cost ==> cost[n] >= 0.0)
    && (forall n :: n in cameFrom && n != start ==> PredecessorOk(g, dist, cameFrom, cost, n))
  }

  // ---------------------------------------------------------------------------
  // a_star_search
  // ---------------------------------------------------------------------------

  /** The search state: `came_from`, `cost_so_far` and the frontier. */
  datatype State = State(cameFrom: map<Point, Option<Point>>, cost: map<Point, real>, frontier: Queue)

  /** The body of the inner loop for neighbour `next` of `current`: when `next` is new or
      reached more cheaply through `current`, its cost and predecessor are overwritten,
      with the cost equal to the cost of `current` plus the step, and it is queued with
      that cost plus its heuristic distance to the goal. Otherwise nothing changes. */
  function Relax(s: State, dist: (Point, Point) -> real, goal: Point, current: Point, next: Point): (r: State)
    requires current in s.cost
    ensures next in r.cost && r.cost[next] <= s.cost[current] + dist(current, next)
    ensures next in s.cost ==> r.cost[next] <= s.cost[next]
    ensures forall n :: n != next ==>
      && (n in r.cost <==> n in s.cost) && (n in r.cameFrom <==> n in s.cameFrom)
      && (n in s.cost ==> r.cost[n] == s.cost[n])
      && (n in s.cameFrom ==> r.cameFrom[n] == s.cameFrom[n])
    ensures r != s <==> next !in s.cost || s.cost[current] + dist(current, next) < s.cost[next]
    ensures r == s || (
      && next in r.cameFrom && r.cameFrom[next] == Some(current)
      && r.cost[next] == s.cost[current] + dist(current, next)
      && multiset(r.frontier.entries)
         == multiset(s.frontier.entries) + multiset{Entry(r.cost[next] + Heuristic(next, goal), next)})
  {
    var newCost := s.cost[current] + dist(current, next);
    if next !in s.cost || newCost < s.cost[next] then
      State(s.cameFrom[next := Some(current)], s.cost[next := newCost],
            Put(s.frontier, next, newCost + Heuristic(next, goal)))
    else s
  }

  /** Every queued point is reached, and is the start or a graph node. */
  ghost predicate FrontierReached(g: Graph, start: Point, s: State) {
    forall e :: e in s.frontier.entries ==> e.point in s.cost && (e.point == start || e.point in g.nodes)
  }

  /** Every reached node has, in `walks`, a walk from the start whose length is its cost. */
  ghost predicate WalksWitness(g: Graph, dist: (Point, Point) -> real, start: Point, s: State,
                               walks: map<Point, seq<Point>>) {
    forall n {:trigger walks[n]} {:trigger n in walks} ::
      n in s.cost ==> n in walks && WalkTo(g, dist, start, n, walks[n], s.cost[n])
  }

  /** Relaxing an edge of the graph keeps the invariant of the two maps. */
  lemma RelaxKeepsTree(g: Graph, dist: (Point, Point) -> real, start: Point, goal: Point,
                       s: State, current: Point, next: Point)
    requires IsDistance(dist)
    requires SearchTree(g, dist, start, s.cameFrom, s.cost)
    requires current in s.cost && current in g.nodes && next in g.nodes && Edge(current, next) in g.edges
    ensures var r := Relax(s, dist, goal, current, next);
      SearchTree(g, dist, start, r.cameFrom, r.cost)
  {
    var r := Relax(s, dist, goal, current, next);
    if r != s {
      assert dist(current, next) >= 0.0;
      assert next != start && next != current;
      forall n | n in r.cameFrom && n != start
        ensures PredecessorOk(g, dist, r.cameFrom, r.cost, n)
      {
        if n != next {
          assert PredecessorOk(g, dist, s.cameFrom, s.cost, n);
        }
      }
    }
  }

  /** Relaxing an edge of the graph keeps every queued point reached and a node. */
  lemma RelaxKeepsFrontier(g: Graph, dist: (Point, Point) -> real, start: Point, goal: Point,
                           s: State, current: Point, next: Point)
    requires FrontierReached(g, start, s)
    requires current in s.cost && next in g.nodes
    ensures FrontierReached(g, start, Relax(s, dist, goal, current, next))
  {
    var r := Relax(s, dist, goal, current, next);
    if r != s {
      forall e | e in r.frontier.entries
        ensures e.point in r.cost && (e.point == start || e.point in g.nodes)
      {
        assert e in multiset(r.frontier.entries);
        if e in multiset(s.frontier.entries) {
          assert e in s.frontier.entries;
        }
      }
    }
  }

  /** Relaxing an edge of the graph extends the walk witnesses: a node whose cost drops
      is reached by the walk to `current` followed by the edge. */
  lemma RelaxExtendsWalks(g: Graph, dist: (Point, Point) -> real, start: Point, goal: Point,
                          s: State, walks: map<Point, seq<Point>>, current: Point, next: Point)
    returns (walks': map<Point, seq<Point>>)
    requires WalksWitness(g, dist, start, s, walks)
    requires current in s.cost && Edge(current, next) in g.edges
    ensures WalksWitness(g, dist, start, Relax(s, dist, goal, current, next), walks')
  {
    var r := Relax(s, dist, goal, current, next);
    if r == s {
      walks' := walks;
    } else {
      var w := walks[current] + [next];
      assert w[..|w| - 1] == walks[current];
      assert WalkTo(g, dist, start, next, w, r.cost[next]);
      walks' := walks[next := w];
    }
  }

  /** The points that have an entry in the queue. */
  function QueuedPoints(q: Queue): set<Point> {
    set e | e in q.entries :: e.point
  }

  /** Every reached node other than `current` is still queued or has all its graph
      neighbours reached. With `current` expanded too, the frontier alone can still
      reach new nodes. */
  ghost predicate ClosedBut(g: Graph, s: State, current: Point) {
    forall n :: n in s.cost && n != current ==>
      n in QueuedPoints(s.frontier) || Neighbors(g, n) <= s.cost.Keys
  }

  /** Every reached node is still queued or has all its graph neighbours reached. */
  ghost predicate Closed(g: Graph, s: State) {
    forall n :: n in s.cost ==> n in QueuedPoints(s.frontier) || Neighbors(g, n) <= s.cost.Keys
  }

  /** Popping an entry can only leave its own point unqueued. */
  lemma PopKeepsClosed(g: Graph, s: State, e: Entry, rest: Queue)
    requires Closed(g, s)
    requires multiset(rest.entries) + multiset{e} == multiset(s.frontier.entries)
    ensures ClosedBut(g, s.(frontier := rest), e.point)
  {
    forall n | n in s.cost && n != e.point && n in QueuedPoints(s.frontier)
      ensures n in QueuedPoints(rest)
    {
      var x :| x in s.frontier.entries && x.point == n;
      assert x in multiset(s.frontier.entries);
      assert x in multiset(rest.entries);
    }
  }

  /** Relaxing keeps every reached node reached and every queued point queued, and
      queues the node it reaches, so the closure invariant survives. */
  lemma RelaxKeepsClosed(g: Graph, dist: (Point, Point) -> real, goal: Point,
                         s: State, current: Point, next: Point)
    requires ClosedBut(g, s, current)
    requires current in s.cost
    ensures var r := Relax(s, dist, goal, current, next);
      ClosedBut(g, r, current) && s.cost.Keys + {next} <= r.cost.Keys
  {
    var r := Relax(s, dist, goal, current, next);
    assert s.cost.Keys <= r.cost.Keys;
    forall n | n in r.cost && n != current
      ensures n in QueuedPoints(r.frontier) || Neighbors(g, n) <= r.cost.Keys
    {
      if n == next && r != s {
        var e := Entry(r.cost[next] + Heuristic(next, goal), next);
        assert e in multiset(r.frontier.entries);
        assert e in r.frontier.entries;
      } else if n in QueuedPoints(s.frontier) {
        var x :| x in s.frontier.entries && x.point == n;
        assert x in multiset(r.frontier.entries);
        assert x in r.frontier.entries;
      }
    }
  }

  /** `goal` can be reached from `start` along edges of the graph. */
  ghost predicate Connected(g: Graph, start: Point, goal: Point) {
    exists w :: IsWalk(g, w) && w[0] == start && w[|w| - 1] == goal
  }

  /** A set of points that holds the start and all graph neighbours of its members holds
      the end of every walk from the start. */
  lemma {:induction false} ClosedSetHoldsWalks(g: Graph, keys: set<Point>, w: seq<Point>)
    requires WellFormed(g) && IsWalk(g, w) && w[0] in keys
    requires forall n :: n in keys ==> Neighbors(g, n) <= keys
    ensures w[|w| - 1] in keys
  {
    if |w| > 1 {
      var init := w[..|w| - 1];
      assert IsWalk(g, init) by {
        assert forall i :: 0 <= i < |init| ==> init[i] == w[i];
      }
      ClosedSetHoldsWalks(g, keys, init);
      var p, q := w[|w| - 2], w[|w| - 1];
      assert Edge(p, q) in g.edges;
      assert q in g.nodes;
      assert q in Neighbors(g, p);
    }
  }

  /** The outcome of `a_star_search`: the two maps once the goal is popped or the
      frontier is empty; the exception networkx raises when `neighbors` is asked about a
      point that is not a node; or the two maps when the bound on the number of pops
      runs out first. */
  datatype SearchResult =
    | Finished(cameFrom: map<Point, Option<Point>>, cost: map<Point, real>)
    | NotInGraph(node: Point)
    | OutOfFuel(cameFrom: map<Point, Option<Point>>, cost: map<Point, real>)

  /** The cost of `n` after relaxing it through a path of length `via`: the old cost if
      it is reached and no higher, and `via` otherwise. */
  function RelaxedCost(cost: map<Point, real>, n: Point, via: real): real {
    if n in cost && cost[n] <= via then cost[n] else via
  }

  /** The cost of `n` part-way through the neighbour loop of `current`, whose cost is
      `c`, once the neighbours in `done` are relaxed: for those, the lower of the cost
      before the loop and the cost through `current`; for every other reached point, its
      cost before the loop. */
  function LoopCost(dist: (Point, Point) -> real, cost0: map<Point, real>, current: Point,
                    c: real, done: set<Point>, n: Point): real {
    if n in done || n !in cost0 then RelaxedCost(cost0, n, c + dist(current, n)) else cost0[n]
  }

  /** The costs part-way through the neighbour loop of `current`: the reached points are
      those reached before plus the neighbours in `done`, and each costs its `LoopCost`. */
  ghost predicate CostsSoFar(dist: (Point, Point) -> real, cost0: map<Point, real>,
                             cost: map<Point, real>, current: Point, c: real, done: set<Point>) {
    && current in cost0 && cost0[current] == c
    && cost.Keys == cost0.Keys + done
    && forall n {:trigger LoopCost(dist, cost0, current, c, done, n)} ::
         n in cost ==> cost[n] == LoopCost(dist, cost0, current, c, done, n)
  }

  /** Relaxing one more neighbour `next` extends `done` by it. */
  lemma RelaxKeepsCosts(s: State, dist: (Point, Point) -> real, goal: Point,
                        cost0: map<Point, real>, current: Point, c: real, done: set<Point>, next: Point)
    requires IsDistance(dist)
    requires CostsSoFar(dist, cost0, s.cost, current, c, done)
    requires current in s.cost && s.cost[current] == c && next !in done
    ensures var r := Relax(s, dist, goal, current, next);
      CostsSoFar(dist, cost0, r.cost, current, c, done + {next})
      && current in r.cost && r.cost[current] == c
  {
    var r := Relax(s, dist, goal, current, next);
    assert dist(current, next) >= 0.0;
    if next in s.cost {
      assert s.cost[next] == LoopCost(dist, cost0, current, c, done, next);
    }
    assert r.cost[next] == RelaxedCost(cost0, next, c + dist(current, next));
    forall n | n in r.cost
      ensures r.cost[n] == LoopCost(dist, cost0, current, c, done + {next}, n)
    {
      if n != next {
        assert r.cost[n] == s.cost[n] == LoopCost(dist, cost0, current, c, done, n);
      }
    }
    assert s.cost[current] == LoopCost(dist, cost0, current, c, done, current);
  }

  /** Relaxing `n` through a path of length `via` improves on the costs `cost`: `n` is
      new, or `via` is strictly cheaper. */
  predicate Improves(cost: map<Point, real>, n: Point, via: real) {
    n !in cost || via < cost[n]
  }

  /** `e` is an entry the neighbour loop of `current`, whose cost is `c`, has queued once
      the neighbours in `done` are relaxed: there is one per neighbour that improved on the
      costs before the loop, with its new cost plus its heuristic distance to the goal. */
  predicate Pushed(dist: (Point, Point) -> real, goal: Point, cost0: map<Point, real>,
                   current: Point, c: real, done: set<Point>, e: Entry) {
    && e.point in done
    && Improves(cost0, e.point, c + dist(current, e.point))
    && e.priority == c + dist(current, e.point) + Heuristic(e.point, goal)
  }

  /** The frontier part-way through the neighbour loop: the frontier `q0` before the loop
      with each `Pushed` entry added once. */
  ghost predicate QueueSoFar(dist: (Point, Point) -> real, goal: Point, q0: Queue,
                             cost0: map<Point, real>, current: Point, c: real,
                             done: set<Point>, q: Queue) {
    forall e :: multiset(q.entries)[e]
      == multiset(q0.entries)[e] + if Pushed(dist, goal, cost0, current, c, done, e) then 1 else 0
  }

  /** Relaxing one more neighbour `next` queues an entry exactly when `next` improves on
      the costs before the loop, so the frontier keeps to `QueueSoFar`. */
  lemma RelaxKeepsQueue(s: State, dist: (Point, Point) -> real, goal: Point, q0: Queue,
                        cost0: map<Point, real>, current: Point, c: real, done: set<Point>,
                        next: Point)
    requires CostsSoFar(dist, cost0, s.cost, current, c, done)
    requires current in s.cost && s.cost[current] == c && next !in done
    requires QueueSoFar(dist, goal, q0, cost0, current, c, done, s.frontier)
    ensures QueueSoFar(dist, goal, q0, cost0, current, c, done + {next},
                       Relax(s, dist, goal, current, next).frontier)
  {
    var r := Relax(s, dist, goal, current, next);
    var via := c + dist(current, next);
    var pushed := Entry(via + Heuristic(next, goal), next);
    if next in s.cost {
      assert s.cost[next] == LoopCost(dist, cost0, current, c, done, next);
    }
    if Improves(cost0, next, via) {
      assert multiset(r.frontier.entries) == multiset(s.frontier.entries) + multiset{pushed};
    } else {
      assert r == s;
    }
    forall e
      ensures multiset(r.frontier.entries)[e] == multiset(q0.entries)[e]
        + if Pushed(dist, goal, cost0, current, c, done + {next}, e) then 1 else 0
    {
      assert multiset(s.frontier.entries)[e] == multiset(q0.entries)[e]
        + if Pushed(dist, goal, cost0, current, c, done, e) then 1 else 0;
      if e == pushed {
        assert !Pushed(dist, goal, cost0, current, c, done, e);
      }
    }
  }

  /** What holds part-way through the neighbour loop of `current`: the search
      invariants, every reached node but `current` still queued or closed, and the costs
      as `CostsSoFar` says. */
  ghost predicate Expanding(g: Graph, dist: (Point, Point) -> real, start: Point,
                            cost0: map<Point, real>, s: State, walks: map<Point, seq<Point>>,
                            current: Point, c: real, done: set<Point>) {
    && SearchTree(g, dist, start, s.cameFrom, s.cost)
    && FrontierReached(g, start, s)
    && WalksWitness(g, dist, start, s, walks)
    && ClosedBut(g, s, current)
    && current in s.cost && s.cost[current] == c
    && CostsSoFar(dist, cost0, s.cost, current, c, done)
  }

  /** `Expanding`, with the frontier as `QueueSoFar` says for the frontier `q0` before
      the loop. */
  ghost predicate Relaxing(g: Graph, dist: (Point, Point) -> real, start: Point, goal: Point,
                           q0: Queue, cost0: map<Point, real>, s: State,
                           walks: map<Point, seq<Point>>, current: Point, c: real, done: set<Point>) {
    && Expanding(g, dist, start, cost0, s, walks, current, c, done)
    && QueueSoFar(dist, goal, q0, cost0, current, c, done, s.frontier)
  }

  /** One turn of the neighbour loop keeps `Expanding`, with `next` now done. */
  lemma RelaxKeepsExpanding(g: Graph, dist: (Point, Point) -> real, start: Point, goal: Point,
                            cost0: map<Point, real>, s: State, walks: map<Point, seq<Point>>,
                            current: Point, c: real, done: set<Point>, next: Point)
    returns (walks': map<Point, seq<Point>>)
    requires IsDistance(dist)
    requires Expanding(g, dist, start, cost0, s, walks, current, c, done)
    requires current in g.nodes && next in Neighbors(g, current) && next !in done
    ensures Expanding(g, dist, start, cost0, Relax(s, dist, goal, current, next), walks',
                      current, c, done + {next})
  {
    RelaxKeepsTree(g, dist, start, goal, s, current, next);
    RelaxKeepsFrontier(g, dist, start, goal, s, current, next);
    RelaxKeepsClosed(g, dist, goal, s, current, next);
    RelaxKeepsCosts(s, dist, goal, cost0, current, c, done, next);
    walks' := RelaxExtendsWalks(g, dist, start, goal, s, walks, current, next);
  }

  /** Once every neighbour of `current` is done, the neighbours cost the lower of their
      old cost and the cost through `current`, no cost has grown, all other costs are
      unchanged, and every reached node is queued or closed. */
  lemma ExpandingDone(g: Graph, dist: (Point, Point) -> real, start: Point,
                      cost0: map<Point, real>, s: State, walks: map<Point, seq<Point>>,
                      current: Point, c: real)
    requires Expanding(g, dist, start, cost0, s, walks, current, c, Neighbors(g, current))
    ensures cost0.Keys + Neighbors(g, current) <= s.cost.Keys
    ensures forall n :: n in Neighbors(g, current) ==> s.cost[n] <= c + dist(current, n)
    ensures forall n :: n in cost0 ==> s.cost[n] <= cost0[n]
    ensures Closed(g, s)
  {
    forall n | n in Neighbors(g, current)
      ensures s.cost[n] <= c + dist(current, n)
    {
      assert s.cost[n] == LoopCost(dist, cost0, current, c, Neighbors(g, current), n);
    }
    forall n | n in cost0
      ensures s.cost[n] <= cost0[n]
    {
      assert s.cost[n] == LoopCost(dist, cost0, current, c, Neighbors(g, current), n);
    }
  }

  /** The inner loop of `a_star_search`: relaxes the edge from `current` to each of its
      graph neighbours, in an order the model leaves open. Afterwards every neighbour of
      `current` is reached at the lower of its old cost and the cost through `current`,
      so no cost grows; every other cost is unchanged; and the search invariants hold. */
  method Expand(g: Graph, dist: (Point, Point) -> real, start: Point, goal: Point,
                s0: State, ghost walks0: map<Point, seq<Point>>, current: Point)
    returns (s: State, ghost walks: map<Point, seq<Point>>)
    requires IsDistance(dist)
    requires SearchTree(g, dist, start, s0.cameFrom, s0.cost)
    requires FrontierReached(g, start, s0)
    requires WalksWitness(g, dist, start, s0, walks0)
    requires ClosedBut(g, s0, current)
    requires current in s0.cost && current in g.nodes
    ensures SearchTree(g, dist, start, s.cameFrom, s.cost)
    ensures FrontierReached(g, start, s)
    ensures WalksWitness(g, dist, start, s, walks)
    ensures s0.cost.Keys + Neighbors(g, current) <= s.cost.Keys
    ensures CostsSoFar(dist, s0.cost, s.cost, current, s0.cost[current], Neighbors(g, current))
    ensures forall n :: n in Neighbors(g, current) ==> s.cost[n] <= s0.cost[current] + dist(current, n)
    ensures forall n :: n in s0.cost ==> s.cost[n] <= s0.cost[n]
    ensures QueueSoFar(dist, goal, s0.frontier, s0.cost, current, s0.cost[current], Neighbors(g, current), s.frontier)
    ensures Closed(g, s)
  {
    var c := s0.cost[current];
    assert Expanding(g, dist, start, s0.cost, s0, walks0, current, c, {});
    s, walks := RelaxAll(g, dist, start, goal, s0.cost, s0, walks0, current, c, Neighbors(g, current));
    ExpandingDone(g, dist, start, s0.cost, s, walks, current, c);
  }

  /** The neighbour loop proper: relaxes `current`'s edge to each point of `nb`, in an
      order the model leaves open. */
  method RelaxAll(g: Graph, dist: (Point, Point) -> real, start: Point, goal: Point,
                  cost0: map<Point, real>, s0: State, ghost walks0: map<Point, seq<Point>>,
                  current: Point, c: real, nb: set<Point>)
    returns (s: State, ghost walks: map<Point, seq<Point>>)
    requires IsDistance(dist) && current in g.nodes && nb <= Neighbors(g, current)
    requires Expanding(g, dist, start, cost0, s0, walks0, current, c, {})
    ensures Relaxing(g, dist, start, goal, s0.frontier, cost0, s, walks, current, c, nb)
    ensures CostsSoFar(dist, cost0, s.cost, current, c, nb)
  {
    s, walks := s0, walks0;
    var todo, done := nb, {};
    while todo != {}
      invariant Relaxing(g, dist, start, goal, s0.frontier, cost0, s, walks, current, c, done)
      invariant todo !! done && todo + done == nb
      decreases todo
    {
      var next :| next in todo;
      s, walks := RelaxStep(g, dist, start, goal, s0.frontier, cost0, s, walks, current, c, done, next);
      todo, done := todo - {next}, done + {next};
    }
    assert done == nb;
  }

  /** One turn of the neighbour loop: relaxes the edge from `current` to `next`. */
  method RelaxStep(g: Graph, dist: (Point, Point) -> real, start: Point, goal: Point, ghost q0: Queue,
                   cost0: map<Point, real>, s: State, ghost walks: map<Point, seq<Point>>,
                   current: Point, c: real, done: set<Point>, next: Point)
    returns (r: State, ghost walks': map<Point, seq<Point>>)
    requires IsDistance(dist)
    requires Relaxing(g, dist, start, goal, q0, cost0, s, walks, current, c, done)
    requires current in g.nodes && next in Neighbors(g, current) && next !in done
    ensures Relaxing(g, dist, start, goal, q0, cost0, r, walks', current, c, done + {next})
    ensures CostsSoFar(dist, cost0, r.cost, current, c, done + {next})
    ensures QueueSoFar(dist, goal, q0, cost0, current, c, done + {next}, r.frontier)
  {
    RelaxKeepsQueue(s, dist, goal, q0, cost0, current, c, done, next);
    walks' := RelaxKeepsExpanding(g, dist, start, goal, cost0, s, walks, current, c, done, next);
    r := Relax(s, dist, goal, current, next);
  }

  /** `a_star_search(graph, start, goal)` with at most `fuel` pops. The pops follow the
      `Trace` from the start alone: each pops the least entry of the frontier the
      previous turn left, the points popped before the last are graph nodes other than
      the goal, and the search stops on popping the goal, on popping a point that is no
      graph node (`neighbors` raises), on an empty frontier, or when the fuel is spent,
      and at no other time. The two maps always have equal key sets; the start keeps
      cost 0 and no predecessor; every other reached node's predecessor is a reached
      graph neighbour and the node costs at least the predecessor's cost plus the step;
      every cost is the length of a walk from the start, so only points connected to the
      start are reached. A search that finishes on an empty frontier has every graph
      neighbour of a reached node reached; so in a well-formed graph a finished search
      reaches every goal connected to the start. When start and goal coincide the first
      pop ends the search with the two one-entry maps; otherwise a start that is no graph
      node makes `neighbors` raise, and only the start can. */
  method Search(g: Graph, dist: (Point, Point) -> real, start: Point, goal: Point, fuel: nat)
    returns (r: SearchResult, ghost pops: seq<Point>, ghost fronts: seq<Queue>,
             ghost costs: seq<map<Point, real>>)
    requires IsDistance(dist)
    ensures Trace(g, dist, start, goal, pops, fronts, costs)
    ensures forall i :: 0 <= i < |pops| - 1 ==> pops[i] != goal && pops[i] in g.nodes
    ensures r.Finished? ==> (|pops| > 0 && pops[|pops| - 1] == goal) || IsEmpty(fronts[|pops|])
    ensures r.OutOfFuel? ==> !IsEmpty(fronts[|pops|]) && |pops| == fuel
    ensures r.NotInGraph? ==> |pops| > 0 && pops[|pops| - 1] == r.node
    ensures r.Finished? || r.OutOfFuel? ==> r.cost == costs[|pops|]
    ensures |pops| <= fuel
    ensures |pops| > 0 ==> pops[0] == start
    ensures r.Finished? || r.OutOfFuel? ==> forall i :: 0 <= i < |pops| ==> pops[i] in r.cost
    ensures r.Finished? || r.OutOfFuel? ==>
      forall i :: 0 <= i < |pops| && pops[i] != goal ==> Neighbors(g, pops[i]) <= r.cost.Keys
    ensures r.Finished? || r.OutOfFuel? ==> SearchTree(g, dist, start, r.cameFrom, r.cost)
    ensures r.Finished? || r.OutOfFuel? ==>
      forall n :: n in r.cost ==> ReachedBy(g, dist, start, n, r.cost[n])
    ensures r.Finished? ==>
      (|pops| > 0 && pops[|pops| - 1] == goal) || forall n :: n in r.cost ==> Neighbors(g, n) <= r.cost.Keys
    ensures r.Finished? ==> goal in r.cost || forall n :: n in r.cost ==> Neighbors(g, n) <= r.cost.Keys
    ensures r.Finished? && WellFormed(g) && Connected(g, start, goal) ==> goal in r.cost
    ensures start == goal && fuel > 0 ==> r == Finished(map[start := None], map[start := 0.0])
    ensures r.NotInGraph? ==> r.node == start && start != goal && start !in g.nodes
    ensures start != goal && start !in g.nodes && fuel > 0 ==> r == NotInGraph(start)
  {
    var s, stop;
    ghost var walks;
    s, stop, walks, pops, fronts, costs := Run(g, dist, start, goal, fuel);
    ReachedFromWalks(g, dist, start, s, walks);
    if stop.Some? {
      if stop.value == goal {
        return Finished(s.cameFrom, s.cost), pops, fronts, costs;
      }
      return NotInGraph(stop.value), pops, fronts, costs;
    }
    if IsEmpty(s.frontier) {
      assert forall n :: n in s.cost ==> Neighbors(g, n) <= s.cost.Keys;
      if WellFormed(g) && Connected(g, start, goal) {
        var w :| IsWalk(g, w) && w[0] == start && w[|w| - 1] == goal;
        ClosedSetHoldsWalks(g, s.cost.Keys, w);
      }
      return Finished(s.cameFrom, s.cost), pops, fronts, costs;
    }
    return OutOfFuel(s.cameFrom, s.cost), pops, fronts, costs;
  }

  /** The `while not frontier.empty()` loop of `a_star_search`, started from the start
      alone at cost 0, for at most `fuel` pops. It stops with `Some(p)` on popping `p` when
      `p` is the goal, or is no graph node, which only the start can be; otherwise it
      stops with `None` on an empty frontier or once the fuel is spent, every point
      popped having been expanded. */
  method Run(g: Graph, dist: (Point, Point) -> real, start: Point, goal: Point, fuel: nat)
    returns (s: State, stop: Option<Point>, ghost walks: map<Point, seq<Point>>,
             ghost pops: seq<Point>, ghost fronts: seq<Queue>, ghost costs: seq<map<Point, real>>)
    requires IsDistance(dist)
    ensures stop.Some? ==> stop.value == goal || (stop.value == start && start !in g.nodes)
    ensures stop.None? ==> IsEmpty(s.frontier) || |pops| == fuel
    ensures fuel > 0 && (start == goal || start !in g.nodes) ==>
      stop == Some(start) && s.cameFrom == map[start := None] && s.cost == map[start := 0.0]
    ensures Searching(g, dist, start, goal, s, walks, pops, fronts, costs)
    ensures |pops| <= fuel && (|pops| > 0 ==> pops[0] == start)
    ensures stop.Some? ==>
      && |pops| > 0 && pops[|pops| - 1] == stop.value
      && PassedOverBut(g, goal, pops)
      && (stop.value == goal ==> PopsExpanded(g, goal, s.cost, pops))
    ensures stop.None? ==> PassedOver(g, goal, pops) && PopsExpanded(g, goal, s.cost, pops) && Closed(g, s)
  {
    var initial := Initial(start);
    s, walks := initial, map[start := [start]];
    var steps := fuel;
    pops, fronts, costs := [], [s.frontier], [s.cost];
    InitialSearching(g, dist, start, goal);
    while steps > 0 && !IsEmpty(s.frontier)
      invariant |pops| == fuel - steps
      invariant Searching(g, dist, start, goal, s, walks, pops, fronts, costs)
      invariant Closed(g, s)
      invariant PopsExpanded(g, goal, s.cost, pops)
      invariant PassedOver(g, goal, pops)
      invariant |pops| > 0 ==> pops[0] == start
      invariant 0 <= steps <= fuel
      invariant steps == fuel ==> s == initial
      invariant steps < fuel ==> start != goal && start in g.nodes
      decreases steps
    {
      if steps == fuel {
        InitialPop(start);
      }
      steps := steps - 1;
      ghost var expanded := pops;
      var current;
      current, s, walks, pops, fronts, costs := Turn(g, dist, start, goal, s, walks, pops, fronts, costs);
      if current == goal || current !in g.nodes {
        PassedOverButLast(g, goal, expanded, current);
        return s, Some(current), walks, pops, fronts, costs;
      }
      PassOver(g, goal, expanded, current);
    }
    return s, None, walks, pops, fronts, costs;
  }

  /** The state before the loop: the start alone, reached at cost 0 with no
      predecessor, and queued with priority 0. */
  function Initial(start: Point): State {
    State(map[start := None], map[start := 0.0], Put(EmptyQueue, start, 0.0))
  }

  /** The search invariants hold before the first turn, the start being reached by the
      one-point walk. */
  lemma InitialSearching(g: Graph, dist: (Point, Point) -> real, start: Point, goal: Point)
    requires IsDistance(dist)
    ensures var s := Initial(start);
      && Searching(g, dist, start, goal, s, map[start := [start]], [], [s.frontier], [s.cost])
      && Closed(g, s) && PopsExpanded(g, goal, s.cost, []) && PassedOver(g, goal, [])
  {
    var s := Initial(start);
    assert WalkTo(g, dist, start, start, [start], 0.0);
    assert Entry(0.0, start) in s.frontier.entries;
  }

  /** The first pop is the start. */
  lemma InitialPop(start: Point)
    ensures Get(Initial(start).frontier).Ok? && Get(Initial(start).frontier).value.0.point == start
  {
    assert Initial(start).frontier.entries == [Entry(0.0, start)];
  }

  /** What holds between turns of the search loop: the course so far is a `Trace` ending
      at the current frontier and costs, and the search invariants hold. */
  ghost predicate Searching(g: Graph, dist: (Point, Point) -> real, start: Point, goal: Point,
                            s: State, walks: map<Point, seq<Point>>, pops: seq<Point>,
                            fronts: seq<Queue>, costs: seq<map<Point, real>>) {
    && Trace(g, dist, start, goal, pops, fronts, costs)
    && fronts[|pops|] == s.frontier && costs[|pops|] == s.cost
    && SearchTree(g, dist, start, s.cameFrom, s.cost)
    && FrontierReached(g, start, s)
    && WalksWitness(g, dist, start, s, walks)
  }

  /** One turn of the search loop: pops the least entry of the frontier; the goal, and a
      point that is no graph node, leave the maps as they were, and any other point is
      expanded, after which every reached point is queued or has all its neighbours
      reached. */
  method Turn(g: Graph, dist: (Point, Point) -> real, start: Point, goal: Point, s: State,
              ghost walks: map<Point, seq<Point>>, ghost pops: seq<Point>, ghost fronts: seq<Queue>,
              ghost costs: seq<map<Point, real>>)
    returns (current: Point, r: State, ghost walks': map<Point, seq<Point>>, ghost pops': seq<Point>,
             ghost fronts': seq<Queue>, ghost costs': seq<map<Point, real>>)
    requires IsDistance(dist)
    requires Searching(g, dist, start, goal, s, walks, pops, fronts, costs)
    requires Closed(g, s) && PopsExpanded(g, goal, s.cost, pops) && !IsEmpty(s.frontier)
    ensures Get(s.frontier).Ok? && current == Get(s.frontier).value.0.point
    ensures current == start || current in g.nodes
    ensures current == goal || current !in g.nodes ==> r.cost == s.cost && r.cameFrom == s.cameFrom
    ensures pops' == pops + [current]
    ensures Searching(g, dist, start, goal, r, walks', pops', fronts', costs')
    ensures current == goal || current in g.nodes ==> PopsExpanded(g, goal, r.cost, pops')
    ensures current != goal && current in g.nodes ==> Closed(g, r)
  {
    var popped := Get(s.frontier);
    current := popped.value.0.point;
    assert current in s.cost;
    PopKeepsFrontier(g, start, s, popped.value.0, popped.value.1);
    PopKeepsClosed(g, s, popped.value.0, popped.value.1);
    r, walks', pops' := s.(frontier := popped.value.1), walks, pops + [current];
    if current == goal || current !in g.nodes {
      TraceExtend(g, dist, start, goal, pops, fronts, costs, current, r.frontier, r.cost);
      fronts', costs' := fronts + [r.frontier], costs + [r.cost];
      if current == goal {
        ExpandKeepsPops(g, goal, r.cost, r.cost, pops, current);
      }
      return;
    }
    ghost var before := r.cost;
    r, walks' := Expand(g, dist, start, goal, r, walks, current);
    ExpandKeepsPops(g, goal, before, r.cost, pops, current);
    TraceExtend(g, dist, start, goal, pops, fronts, costs, current, r.frontier, r.cost);
    fronts', costs' := fronts + [r.frontier], costs + [r.cost];
  }

  /** One turn of the search loop, from frontier `q` and costs `cost` to `q'` and
      `cost'`: `p` is the entry `get()` pops. The goal, and a point that is no graph node,
      ends the search with the rest of the frontier and the costs unchanged; any other
      point is expanded, its neighbours taking the costs `CostsSoFar` gives them and the
      rest of the frontier gaining the entries `QueueSoFar` gives it. */
  ghost predicate PopStep(g: Graph, dist: (Point, Point) -> real, goal: Point, q: Queue,
                          cost: map<Point, real>, p: Point, q': Queue, cost': map<Point, real>) {
    && Get(q).Ok? && Get(q).value.0.point == p && p in cost
    && if p == goal || p !in g.nodes then q' == Get(q).value.1 && cost' == cost
       else
         && CostsSoFar(dist, cost, cost', p, cost[p], Neighbors(g, p))
         && QueueSoFar(dist, goal, Get(q).value.1, cost, p, cost[p], Neighbors(g, p), q')
  }

  /** The course of a search from `start`: `fronts[i]` and `costs[i]` are the frontier and
      the costs before the `i`-th pop, starting from the start alone at cost 0, and each
      pop `pops[i]` is a `PopStep` from them to the next frontier and costs. */
  ghost predicate Trace(g: Graph, dist: (Point, Point) -> real, start: Point, goal: Point,
                        pops: seq<Point>, fronts: seq<Queue>, costs: seq<map<Point, real>>) {
    && |fronts| == |pops| + 1 && |costs| == |pops| + 1
    && fronts[0] == Put(EmptyQueue, start, 0.0) && costs[0] == map[start := 0.0]
    && forall i :: 0 <= i < |pops| ==> StepAt(g, dist, goal, pops, fronts, costs, i)
  }

  /** The `i`-th pop of a trace is a `PopStep`. */
  ghost predicate StepAt(g: Graph, dist: (Point, Point) -> real, goal: Point, pops: seq<Point>,
                         fronts: seq<Queue>, costs: seq<map<Point, real>>, i: int) {
    && 0 <= i < |pops| && i + 1 < |fronts| && i + 1 < |costs|
    && PopStep(g, dist, goal, fronts[i], costs[i], pops[i], fronts[i + 1], costs[i + 1])
  }

  /** A trace extends by one more `PopStep` from its last frontier and costs. */
  lemma TraceExtend(g: Graph, dist: (Point, Point) -> real, start: Point, goal: Point,
                    pops: seq<Point>, fronts: seq<Queue>, costs: seq<map<Point, real>>,
                    p: Point, q: Queue, cost: map<Point, real>)
    requires Trace(g, dist, start, goal, pops, fronts, costs)
    requires PopStep(g, dist, goal, fronts[|pops|], costs[|pops|], p, q, cost)
    ensures Trace(g, dist, start, goal, pops + [p], fronts + [q], costs + [cost])
  {
    var ps, fs, cs := pops + [p], fronts + [q], costs + [cost];
    forall i | 0 <= i < |ps|
      ensures StepAt(g, dist, goal, ps, fs, cs, i)
    {
      if i < |pops| {
        assert StepAt(g, dist, goal, pops, fronts, costs, i);
        assert fs[i] == fronts[i] && fs[i + 1] == fronts[i + 1];
        assert cs[i] == costs[i] && cs[i + 1] == costs[i + 1] && ps[i] == pops[i];
      }
    }
  }

  /** The course of the search does not depend on the order `neighbors` lists the
      neighbours in: two traces from the same start agree on every pop, on the costs
      and on which entries the frontier holds. */
  lemma {:induction false} TracesAgree(g: Graph, dist: (Point, Point) -> real, start: Point,
                                       goal: Point, pops1: seq<Point>, fronts1: seq<Queue>,
                                       costs1: seq<map<Point, real>>, pops2: seq<Point>,
                                       fronts2: seq<Queue>, costs2: seq<map<Point, real>>, n: nat)
    requires Trace(g, dist, start, goal, pops1, fronts1, costs1)
    requires Trace(g, dist, start, goal, pops2, fronts2, costs2)
    requires n <= |pops1| && n <= |pops2|
    ensures pops1[..n] == pops2[..n]
    ensures costs1[n] == costs2[n]
    ensures multiset(fronts1[n].entries) == multiset(fronts2[n].entries)
  {
    if n > 0 {
      var i := n - 1;
      TracesAgree(g, dist, start, goal, pops1, fronts1, costs1, pops2, fronts2, costs2, i);
      assert StepAt(g, dist, goal, pops1, fronts1, costs1, i);
      assert StepAt(g, dist, goal, pops2, fronts2, costs2, i);
      PopStepsAgree(g, dist, goal, fronts1[i], fronts2[i], costs1[i], pops1[i], pops2[i],
                    fronts1[n], fronts2[n], costs1[n], costs2[n]);
      assert pops1[..n] == pops1[..i] + [pops1[i]];
      assert pops2[..n] == pops2[..i] + [pops2[i]];
    }
  }

  /** One turn from frontiers holding the same entries, and from the same costs, pops the
      same point and leaves the same costs and frontiers holding the same entries. */
  lemma PopStepsAgree(g: Graph, dist: (Point, Point) -> real, goal: Point, q1: Queue, q2: Queue,
                      cost: map<Point, real>, p1: Point, p2: Point, r1: Queue, r2: Queue,
                      cost1: map<Point, real>, cost2: map<Point, real>)
    requires multiset(q1.entries) == multiset(q2.entries)
    requires PopStep(g, dist, goal, q1, cost, p1, r1, cost1)
    requires PopStep(g, dist, goal, q2, cost, p2, r2, cost2)
    ensures p1 == p2 && cost1 == cost2 && multiset(r1.entries) == multiset(r2.entries)
  {
    GetByContents(q1, q2);
    if p1 != goal && p1 in g.nodes {
      var nb, c := Neighbors(g, p1), cost[p1];
      CostsSoFarUnique(dist, cost, cost1, cost2, p1, c, nb);
      QueueSoFarUnique(dist, goal, Get(q1).value.1, Get(q2).value.1, cost, p1, c, nb, r1, r2);
    }
  }

  /** The costs after a neighbour loop are determined by the costs before it. */
  lemma CostsSoFarUnique(dist: (Point, Point) -> real, cost0: map<Point, real>,
                         a: map<Point, real>, b: map<Point, real>, current: Point, c: real,
                         done: set<Point>)
    requires CostsSoFar(dist, cost0, a, current, c, done)
    requires CostsSoFar(dist, cost0, b, current, c, done)
    ensures a == b
  {
    forall n | n in a
      ensures a[n] == b[n]
    {
      assert a[n] == LoopCost(dist, cost0, current, c, done, n) == b[n];
    }
  }

  /** The entries queued by a neighbour loop are determined by the entries and the costs
      before it. */
  lemma QueueSoFarUnique(dist: (Point, Point) -> real, goal: Point, q1: Queue, q2: Queue,
                         cost0: map<Point, real>, current: Point, c: real, done: set<Point>,
                         r1: Queue, r2: Queue)
    requires multiset(q1.entries) == multiset(q2.entries)
    requires QueueSoFar(dist, goal, q1, cost0, current, c, done, r1)
    requires QueueSoFar(dist, goal, q2, cost0, current, c, done, r2)
    ensures multiset(r1.entries) == multiset(r2.entries)
  {
    forall e
      ensures multiset(r1.entries)[e] == multiset(r2.entries)[e]
    {
      assert multiset(r1.entries)[e] == multiset(q1.entries)[e]
        + if Pushed(dist, goal, cost0, current, c, done, e) then 1 else 0;
    }
  }

  /** None of the points popped so far is the goal, and each is a graph node, so each
      was expanded and the search went on. */
  ghost predicate PassedOver(g: Graph, goal: Point, pops: seq<Point>) {
    forall i :: 0 <= i < |pops| ==> pops[i] != goal && pops[i] in g.nodes
  }

  /** A popped point that is a graph node other than the goal joins the passed-over ones. */
  lemma PassOver(g: Graph, goal: Point, pops: seq<Point>, p: Point)
    requires PassedOver(g, goal, pops) && p != goal && p in g.nodes
    ensures PassedOver(g, goal, pops + [p])
  {
    var ps := pops + [p];
    forall i | 0 <= i < |ps|
      ensures ps[i] != goal && ps[i] in g.nodes
    {
      if i < |pops| {
        assert ps[i] == pops[i];
      }
    }
  }

  /** Every pop but the last was passed over: the search stops on the last pop at the
      earliest. */
  ghost predicate PassedOverBut(g: Graph, goal: Point, pops: seq<Point>) {
    forall i :: 0 <= i < |pops| - 1 ==> pops[i] != goal && pops[i] in g.nodes
  }

  /** Once the search stops on `p`, every pop before it was passed over. */
  lemma PassedOverButLast(g: Graph, goal: Point, pops: seq<Point>, p: Point)
    requires PassedOver(g, goal, pops)
    ensures PassedOverBut(g, goal, pops + [p])
  {
    var ps := pops + [p];
    forall i | 0 <= i < |ps| - 1
      ensures ps[i] != goal && ps[i] in g.nodes
    {
      assert ps[i] == pops[i];
    }
  }

  /** Every point popped so far is reached, and every one but the goal has all its
      neighbours reached. */
  ghost predicate PopsExpanded(g: Graph, goal: Point, cost: map<Point, real>, pops: seq<Point>) {
    && (forall i :: 0 <= i < |pops| ==> pops[i] in cost)
    && (forall i :: 0 <= i < |pops| && pops[i] != goal ==> Neighbors(g, pops[i]) <= cost.Keys)
  }

  /** A reached point that is the goal, or whose neighbours are all reached, joins the
      popped points once no reached point is lost. */
  lemma ExpandKeepsPops(g: Graph, goal: Point, cost0: map<Point, real>, cost: map<Point, real>,
                        pops: seq<Point>, current: Point)
    requires PopsExpanded(g, goal, cost0, pops)
    requires current in cost0 && cost0.Keys <= cost.Keys
    requires current != goal ==> Neighbors(g, current) <= cost.Keys
    ensures PopsExpanded(g, goal, cost, pops + [current])
  {
    var ps := pops + [current];
    forall i | 0 <= i < |ps|
      ensures ps[i] in cost && (ps[i] != goal ==> Neighbors(g, ps[i]) <= cost.Keys)
    {
      if i < |pops| {
        assert ps[i] == pops[i];
      }
    }
  }

  /** Popping an entry keeps every remaining queued point reached and a node. */
  lemma PopKeepsFrontier(g: Graph, start: Point, s: State, e: Entry, rest: Queue)
    requires FrontierReached(g, start, s)
    requires multiset(rest.entries) + multiset{e} == multiset(s.frontier.entries)
    ensures FrontierReached(g, start, s.(frontier := rest))
  {
    forall x | x in rest.entries
      ensures x in s.frontier.entries
    {
      assert x in multiset(s.frontier.entries);
    }
  }

  lemma ReachedFromWalks(g: Graph, dist: (Point, Point) -> real, start: Point, s: State,
                         walks: map<Point, seq<Point>>)
    requires WalksWitness(g, dist, start, s, walks)
    ensures forall n :: n in s.cost ==> ReachedBy(g, dist, start, n, s.cost[n])
  {
    forall n | n in s.cost
      ensures ReachedBy(g, dist, start, n, s.cost[n])
    {
      assert WalkTo(g, dist, start, n, walks[n], s.cost[n]);
    }
  }
}

=== FILE: cdt_graph.dfy ===
/** The search-graph builder (src/CDT_Graph.py, class `SG_graph`). Its nodes are the
    midpoints of triangle sides that do not coincide with the midpoint of an obstacle or
    chip-boundary side; its edges are medial segments joining two side midpoints of one
    triangle, kept when both ends are nodes. The graph is an undirected networkx graph,
    modelled here as a node set and a set of unordered edges. */
module SearchGraph {
  import opened Util
  import Dataset

  /** A triangle of the triangulation as three indices into the point array. */
  datatype Triangle = Triangle(a: nat, b: nat, c: nat)

  /** Every triangle's indices lie inside the point array. The builder assumes this of
      its `points` and `tri` arguments; the IndexError numpy raises for an index past the
      end of `points` is not modelled. */
  predicate ValidTriangles(points: seq<Point>, tri: seq<Triangle>) {
    forall i :: 0 <= i < |tri| ==> tri[i].a < |points| && tri[i].b < |points| && tri[i].c < |points|
  }

  /** `points[t]`: the triangle's three vertices in index order. */
  function Vertices(points: seq<Point>, t: Triangle): (v: Polygon)
    requires t.a < |points| && t.b < |points| && t.c < |points|
    ensures |v| == 3
  {
    [points[t.a], points[t.b], points[t.c]]
  }

  /** The midpoints of a polygon's sides in polygon order: side k joins vertex k and
      vertex (k+1) mod m. Both the triangle loops and the boundary loop compute this. */
  function SideMidpoints(poly: Polygon): (r: seq<Point>)
    ensures |r| == |poly|
    ensures forall k :: 0 <= k < |poly| ==> r[k] == Midpoint(poly[k], poly[Succ(k, |poly|)])
  {
    seq(|poly|, k requires 0 <= k < |poly| => Midpoint(poly[k], poly[Succ(k, |poly|)]))
  }

  /** The side midpoints of triangle `i`. */
  function Medial(points: seq<Point>, tri: seq<Triangle>, i: nat): (m: seq<Point>)
    requires ValidTriangles(points, tri) && i < |tri|
    ensures |m| == 3
  {
    SideMidpoints(Vertices(points, tri[i]))
  }

  // ---------------------------------------------------------------------------
  // Midpoint lists
  // ---------------------------------------------------------------------------

  /** `calculate_tri_midpoint`: three midpoints per triangle, triangle after triangle;
      entries 3i, 3i+1, 3i+2 are the midpoints of triangle i's sides (0,1), (1,2), (2,0). */
  function TriMidpoints(points: seq<Point>, tri: seq<Triangle>): (r: seq<Point>)
    requires ValidTriangles(points, tri)
    ensures |r| == 3 * |tri|
    ensures forall i :: 0 <= i < |tri| ==>
      r[3 * i..3 * i + 3] == SideMidpoints(Vertices(points, tri[i]))
  {
    if |tri| == 0 then []
    else
      var rest := TriMidpoints(points, tri[1..]);
      var r := SideMidpoints(Vertices(points, tri[0])) + rest;
      assert forall i :: 1 <= i < |tri| ==>
        (tri[i] == tri[1..][i - 1] && r[3 * i..3 * i + 3] == rest[3 * (i - 1)..3 * (i - 1) + 3]);
      r
  }

  /** `calculate_tri_neutrality_edge`: one three-element list per triangle, holding the
      same midpoints in the same order as the triangle's block of `calculate_tri_midpoint`. */
  function TriNeutralityEdges(points: seq<Point>, tri: seq<Triangle>): (r: seq<seq<Point>>)
    requires ValidTriangles(points, tri)
    ensures |r| == |tri|
    ensures forall i :: 0 <= i < |tri| ==> r[i] == TriMidpoints(points, tri)[3 * i..3 * i + 3]
  {
    seq(|tri|, i requires 0 <= i < |tri| => Medial(points, tri, i))
  }

  /** `calcuulate_boundary_midpoint`: for each constraint polygon of m vertices, its m
      side midpoints in polygon order, polygon after polygon. */
  function BoundaryMidpoints(polys: seq<Polygon>): (r: seq<Point>)
    ensures |r| == TotalSize(polys)
    ensures forall j :: 0 <= j < |polys| ==>
      TotalSize(polys[..j]) + |polys[j]| <= |r|
      && r[TotalSize(polys[..j])..TotalSize(polys[..j]) + |polys[j]|] == SideMidpoints(polys[j])
  {
    if |polys| == 0 then []
    else
      var rest := BoundaryMidpoints(polys[1..]);
      var r := SideMidpoints(polys[0]) + rest;
      forall j | 0 <= j < |polys|
        ensures TotalSize(polys[..j]) + |polys[j]| <= |r|
        ensures r[TotalSize(polys[..j])..TotalSize(polys[..j]) + |polys[j]|] == SideMidpoints(polys[j])
      {
        if j > 0 {
          BoundaryBlockShift(polys, rest, j);
        } else {
          assert polys[..0] == [];
        }
      }
      r
  }

  /** Block j of the whole list is block j - 1 of the list for the later polygons,
      moved past the first polygon's midpoints. */
  lemma BoundaryBlockShift(polys: seq<Polygon>, rest: seq<Point>, j: nat)
    requires 0 < j < |polys|
    requires |rest| == TotalSize(polys[1..])
    requires var o := TotalSize(polys[1..][..j - 1]);
      o + |polys[j]| <= |rest| && rest[o..o + |polys[j]|] == SideMidpoints(polys[j])
    ensures var o := TotalSize(polys[..j]); var r := SideMidpoints(polys[0]) + rest;
      o + |polys[j]| <= |r| && r[o..o + |polys[j]|] == SideMidpoints(polys[j])
  {
    assert polys[..j][1..] == polys[1..][..j - 1];
    var o' := TotalSize(polys[1..][..j - 1]);
    var m, n := |polys[0]|, |polys[j]|;
    assert TotalSize(polys[..j]) == m + o';
    var r := SideMidpoints(polys[0]) + rest;
    assert r[m + o'..m + o' + n] == rest[o'..o' + n];
  }

  /** A point is a boundary midpoint exactly when it is the midpoint of some side of
      some constraint polygon. */
  lemma {:induction false} BoundaryMidpointMembership(polys: seq<Polygon>, p: Point)
    ensures p in BoundaryMidpoints(polys) <==>
      exists j, k :: 0 <= j < |polys| && 0 <= k < |polys[j]| && p == SideMidpoints(polys[j])[k]
  {
    if |polys| > 0 {
      BoundaryMidpointMembership(polys[1..], p);
      var r := BoundaryMidpoints(polys);
      assert r == SideMidpoints(polys[0]) + BoundaryMidpoints(polys[1..]);
      if p in SideMidpoints(polys[0]) {
        var k :| 0 <= k < |polys[0]| && SideMidpoints(polys[0])[k] == p;
        assert p == SideMidpoints(polys[0])[k];
      }
      if exists j, k :: 0 <= j < |polys| && 0 <= k < |polys[j]| && p == SideMidpoints(polys[j])[k] {
        var j, k :| 0 <= j < |polys| && 0 <= k < |polys[j]| && p == SideMidpoints(polys[j])[k];
        if j > 0 {
          assert polys[j] == polys[1..][j - 1];
        }
      }
    }
  }

  // ---------------------------------------------------------------------------
  // The graph and the networkx operations the builder uses
  // ---------------------------------------------------------------------------

  /** An undirected graph: a node set and unordered edges, an edge being the set of its
      one (self-loop) or two endpoints. */
  datatype Graph = Graph(nodes: set<Point>, edges: set<set<Point>>)

  /** The graph of a fresh `nx.Graph()`. */
  const EmptyGraph := Graph({}, {})

  /** The unordered edge between `a` and `b`. */
  function Edge(a: Point, b: Point): set<Point> {
    {a, b}
  }

  /** The networkx invariant: every edge has one or two endpoints, all of them nodes. */
  predicate WellFormed(g: Graph) {
    forall e :: e in g.edges ==> 1 <= |e| <= 2 && e <= g.nodes
  }

  /** `graph.neighbors(n)` for a node `n`. */
  function Neighbors(g: Graph, n: Point): set<Point> {
    set m | m in g.nodes && Edge(n, m) in g.edges
  }

  /** The elements of a point list as a set. */
  function Elements(ps: seq<Point>): set<Point> {
    set p | p in ps
  }

  /** `add_nodes_from`. */
  function AddNodesFrom(g: Graph, ps: seq<Point>): Graph {
    g.(nodes := g.nodes + Elements(ps))
  }

  /** `remove_nodes_from`: the listed nodes go, with every edge that touches one of them;
      listed points that are not nodes are ignored. */
  function RemoveNodesFrom(g: Graph, ps: seq<Point>): Graph {
    Graph(g.nodes - Elements(ps), set e | e in g.edges && e !! Elements(ps))
  }

  /** The unordered edges of a list of point pairs. */
  function PairEdges(es: seq<(Point, Point)>): set<set<Point>> {
    set pair | pair in es :: Edge(pair.0, pair.1)
  }

  /** `add_edges_from`: the edges, and their endpoints as nodes. */
  function AddEdgesFrom(g: Graph, es: seq<(Point, Point)>): Graph {
    Graph(g.nodes + (set e | e in es :: e.0) + (set e | e in es :: e.1), g.edges + PairEdges(es))
  }

  /** `[node for node in ps if node in nodes]`. */
  function ExistingNodes(ps: seq<Point>, nodes: set<Point>): (r: seq<Point>)
    ensures forall p :: p in r <==> p in ps && p in nodes
  {
    if |ps| == 0 then []
    else (if ps[0] in nodes then [ps[0]] else []) + ExistingNodes(ps[1..], nodes)
  }

  /** Removing only the boundary midpoints that are nodes has the same effect as removing
      them all: points that are not nodes are ignored. Removal keeps the graph well formed. */
  lemma RemoveExistingOnly(g: Graph, ps: seq<Point>)
    requires WellFormed(g)
    ensures RemoveNodesFrom(g, ExistingNodes(ps, g.nodes)) == RemoveNodesFrom(g, ps)
    ensures WellFormed(RemoveNodesFrom(g, ps))
  {
    var ex := ExistingNodes(ps, g.nodes);
    assert Elements(ex) == Elements(ps) * g.nodes;
    forall e | e in g.edges
      ensures e !! Elements(ex) <==> e !! Elements(ps)
    {
      assert e <= g.nodes;
    }
  }

  // ---------------------------------------------------------------------------
  // add_midpoint_to_SG
  // ---------------------------------------------------------------------------

  /** `add_midpoint_to_SG`: every triangle side midpoint becomes a node, then every node
      that coincides exactly with a boundary midpoint is removed together with its edges.
      A point is a node afterwards iff it was a node or a triangle midpoint, and is no
      boundary midpoint. */
  function AddMidpointsToSG(g: Graph, points: seq<Point>, tri: seq<Triangle>,
                            constraint: seq<Polygon>): (r: Graph)
    requires WellFormed(g) && ValidTriangles(points, tri)
    ensures forall p :: p in r.nodes <==>
      (p in g.nodes || p in TriMidpoints(points, tri)) && p !in BoundaryMidpoints(constraint)
    ensures forall e :: e in r.edges <==>
      e in g.edges && forall p :: p in e ==> p !in BoundaryMidpoints(constraint)
    ensures WellFormed(r)
  {
    var g1 := AddNodesFrom(g, TriMidpoints(points, tri));
    var bounds := BoundaryMidpoints(constraint);
    RemoveExistingOnly(g1, bounds);
    RemoveNodesFrom(g1, ExistingNodes(bounds, g1.nodes))
  }

  /** On a fresh graph the nodes are exactly the triangle midpoints that are no boundary
      midpoint, compared by exact equality. */
  lemma FreshMidpointNodes(points: seq<Point>, tri: seq<Triangle>, constraint: seq<Polygon>)
    requires ValidTriangles(points, tri)
    ensures AddMidpointsToSG(EmptyGraph, points, tri, constraint).nodes
      == Elements(TriMidpoints(points, tri)) - Elements(BoundaryMidpoints(constraint))
    ensures AddMidpointsToSG(EmptyGraph, points, tri, constraint).edges == {}
  {
    var r := AddMidpointsToSG(EmptyGraph, points, tri, constraint);
    assert forall p :: p in r.nodes <==> p in Elements(TriMidpoints(points, tri)) - Elements(BoundaryMidpoints(constraint));
  }

  /** Without constraint polygons nothing is filtered: every triangle midpoint is a node. */
  lemma NoConstraintKeepsAllMidpoints(points: seq<Point>, tri: seq<Triangle>)
    requires ValidTriangles(points, tri)
    ensures AddMidpointsToSG(EmptyGraph, points, tri, []).nodes == Elements(TriMidpoints(points, tri))
  {
    FreshMidpointNodes(points, tri, []);
  }

  // ---------------------------------------------------------------------------
  // filter_valid_neutrality_edge and add_egdes_to_SG
  // ---------------------------------------------------------------------------

  /** The pair (l[k], l[(k+1) mod |l|]) is a side of the cyclic list `l` whose two ends
      are both nodes. */
  ghost predicate ValidSideOf(nodes: set<Point>, l: seq<Point>, k: int, e: (Point, Point))
  {
    0 <= k < |l| && e == (l[k], l[Succ(k, |l|)]) && e.0 in nodes && e.1 in nodes
  }

  /** The inner loop over one triangle's list, from position `idx` on. */
  function ValidSides(nodes: set<Point>, l: seq<Point>, idx: nat): (r: seq<(Point, Point)>)
    requires idx <= |l|
    ensures |r| <= |l| - idx
    ensures forall e :: e in r <==> exists k :: idx <= k < |l| && ValidSideOf(nodes, l, k, e)
    decreases |l| - idx
  {
    if idx == |l| then []
    else
      var p1, p2 := l[idx], l[Succ(idx, |l|)];
      var rest := ValidSides(nodes, l, idx + 1);
      assert ValidSideOf(nodes, l, idx, (p1, p2)) <==> p1 in nodes && p2 in nodes;
      (if p1 in nodes && p2 in nodes then [(p1, p2)] else []) + rest
  }

  /** `filter_valid_neutrality_edge`: the pair (p1, p2) is emitted iff p1 and p2 are
      cyclically consecutive in one of the lists and both are nodes of the graph; at most
      one pair per list entry is emitted. */
  function FilterValidNeutralityEdges(g: Graph, lists: seq<seq<Point>>): (r: seq<(Point, Point)>)
    ensures |r| <= TotalSize(lists)
    ensures forall e :: e in r <==>
      exists i, k :: 0 <= i < |lists| && ValidSideOf(g.nodes, lists[i], k, e)
  {
    if |lists| == 0 then []
    else
      var first := ValidSides(g.nodes, lists[0], 0);
      var rest := FilterValidNeutralityEdges(g, lists[1..]);
      assert forall e :: e in rest <==>
        exists i, k :: 1 <= i < |lists| && ValidSideOf(g.nodes, lists[i], k, e) by {
        forall e
          ensures e in rest <==> exists i, k :: 1 <= i < |lists| && ValidSideOf(g.nodes, lists[i], k, e)
        {
          if e in rest {
            var i, k :| 0 <= i < |lists| - 1 && ValidSideOf(g.nodes, lists[1..][i], k, e);
            assert ValidSideOf(g.nodes, lists[i + 1], k, e);
          }
          if exists i, k :: 1 <= i < |lists| && ValidSideOf(g.nodes, lists[i], k, e) {
            var i, k :| 1 <= i < |lists| && ValidSideOf(g.nodes, lists[i], k, e);
            assert ValidSideOf(g.nodes, lists[1..][i - 1], k, e);
          }
        }
      }
      first + rest
  }

  /** The unordered edge `e` joins entry k and entry (k+1) mod |m| of the cyclic list
      `m`, both of them nodes. */
  ghost predicate MedialSide(nodes: set<Point>, m: seq<Point>, k: int, e: set<Point>) {
    0 <= k < |m| && m[k] in nodes && m[Succ(k, |m|)] in nodes && e == Edge(m[k], m[Succ(k, |m|)])
  }

  /** The unordered edge `e` is a medial segment of some triangle whose two ends are both
      nodes of `nodes`. */
  ghost predicate MedialEdge(nodes: set<Point>, points: seq<Point>, tri: seq<Triangle>, e: set<Point>)
    requires ValidTriangles(points, tri)
  {
    exists i, k :: 0 <= i < |tri| && MedialSide(nodes, Medial(points, tri, i), k, e)
  }

  /** `add_egdes_to_SG`: adds the medial segments of every triangle whose two ends are
      nodes. The node set is unchanged, since every added edge's ends are already nodes;
      an edge is present afterwards iff it was present or is such a medial segment. */
  function AddEdgesToSG(g: Graph, points: seq<Point>, tri: seq<Triangle>): (r: Graph)
    requires WellFormed(g) && ValidTriangles(points, tri)
    ensures r.nodes == g.nodes
    ensures forall e :: e in r.edges <==> e in g.edges || MedialEdge(g.nodes, points, tri, e)
    ensures WellFormed(r)
  {
    var lists := TriNeutralityEdges(points, tri);
    var es := FilterValidNeutralityEdges(g, lists);
    FilteredEdgesAreMedialEdges(g, points, tri, es);
    AddNodePairs(g, es);
    AddEdgesFrom(g, es)
  }

  /** Adding pairs of existing nodes adds their edges and no node, and keeps the graph
      well formed. */
  lemma AddNodePairs(g: Graph, es: seq<(Point, Point)>)
    requires WellFormed(g)
    requires forall e :: e in es ==> e.0 in g.nodes && e.1 in g.nodes
    ensures AddEdgesFrom(g, es) == Graph(g.nodes, g.edges + PairEdges(es))
    ensures WellFormed(AddEdgesFrom(g, es))
  {
    var r := AddEdgesFrom(g, es);
    assert (set e | e in es :: e.0) <= g.nodes;
    assert (set e | e in es :: e.1) <= g.nodes;
    forall e | e in PairEdges(es)
      ensures 1 <= |e| <= 2 && e <= g.nodes
    {
      var pair :| pair in es && e == Edge(pair.0, pair.1);
      EdgeSize(pair.0, pair.1);
    }
  }

  /** The edges of the filtered pairs are exactly the medial edges between nodes. */
  lemma FilteredEdgesAreMedialEdges(g: Graph, points: seq<Point>, tri: seq<Triangle>, es: seq<(Point, Point)>)
    requires ValidTriangles(points, tri)
    requires es == FilterValidNeutralityEdges(g, TriNeutralityEdges(points, tri))
    ensures forall e :: e in es ==> e.0 in g.nodes && e.1 in g.nodes
    ensures forall e :: e in PairEdges(es) <==> MedialEdge(g.nodes, points, tri, e)
  {
    FilteredPairsAreMedial(g, points, tri, es);
    MedialEdgesAreFiltered(g, points, tri, es);
    forall e | e in PairEdges(es)
      ensures MedialEdge(g.nodes, points, tri, e)
    {
      var pair :| pair in es && e == Edge(pair.0, pair.1);
    }
  }

  /** An unordered edge has one or two ends. */
  lemma EdgeSize(a: Point, b: Point)
    ensures 1 <= |Edge(a, b)| <= 2
  {
    if a == b {
      assert Edge(a, b) == {a};
    }
  }

  lemma FilteredPairsAreMedial(g: Graph, points: seq<Point>, tri: seq<Triangle>, es: seq<(Point, Point)>)
    requires ValidTriangles(points, tri)
    requires es == FilterValidNeutralityEdges(g, TriNeutralityEdges(points, tri))
    ensures forall e :: e in es ==> e.0 in g.nodes && e.1 in g.nodes && MedialEdge(g.nodes, points, tri, Edge(e.0, e.1))
  {
    var lists := TriNeutralityEdges(points, tri);
    forall e | e in es
      ensures e.0 in g.nodes && e.1 in g.nodes
      ensures MedialEdge(g.nodes, points, tri, Edge(e.0, e.1))
    {
      var i, k :| 0 <= i < |lists| && ValidSideOf(g.nodes, lists[i], k, e);
      NeutralityListIsMedial(points, tri, i);
      assert MedialSide(g.nodes, Medial(points, tri, i), k, Edge(e.0, e.1));
    }
  }

  lemma MedialEdgesAreFiltered(g: Graph, points: seq<Point>, tri: seq<Triangle>, es: seq<(Point, Point)>)
    requires ValidTriangles(points, tri)
    requires es == FilterValidNeutralityEdges(g, TriNeutralityEdges(points, tri))
    ensures forall e :: MedialEdge(g.nodes, points, tri, e) ==> e in PairEdges(es)
  {
    forall e | MedialEdge(g.nodes, points, tri, e)
      ensures e in PairEdges(es)
    {
      var i, k :| 0 <= i < |tri| && MedialSide(g.nodes, Medial(points, tri, i), k, e);
      var pair := MedialSideIsFiltered(g, points, tri, es, i, k, e);
    }
  }

  lemma MedialSideIsFiltered(g: Graph, points: seq<Point>, tri: seq<Triangle>, es: seq<(Point, Point)>,
                             i: nat, k: nat, e: set<Point>) returns (pair: (Point, Point))
    requires ValidTriangles(points, tri)
    requires es == FilterValidNeutralityEdges(g, TriNeutralityEdges(points, tri))
    requires i < |tri| && MedialSide(g.nodes, Medial(points, tri, i), k, e)
    ensures pair in es && e == Edge(pair.0, pair.1)
  {
    var lists := TriNeutralityEdges(points, tri);
    var m := Medial(points, tri, i);
    pair := (m[k], m[Succ(k, 3)]);
    NeutralityListIsMedial(points, tri, i);
    assert ValidSideOf(g.nodes, lists[i], k, pair);
  }

  /** List `i` of `calculate_tri_neutrality_edge` holds the side midpoints of triangle `i`. */
  lemma NeutralityListIsMedial(points: seq<Point>, tri: seq<Triangle>, i: nat)
    requires ValidTriangles(points, tri) && i < |tri|
    ensures TriNeutralityEdges(points, tri)[i] == Medial(points, tri, i)
  {
  }

  /** Edges are kept in a set of unordered pairs, so adding the medial edges a second time
      changes nothing. */
  lemma AddEdgesIdempotent(g: Graph, points: seq<Point>, tri: seq<Triangle>)
    requires WellFormed(g) && ValidTriangles(points, tri)
    ensures AddEdgesToSG(AddEdgesToSG(g, points, tri), points, tri) == AddEdgesToSG(g, points, tri)
  {
    var once := AddEdgesToSG(g, points, tri);
    var twice := AddEdgesToSG(once, points, tri);
    assert twice.edges == once.edges;
  }

  /** Every edge `add_egdes_to_SG` can add (by its contract, exactly the medial edges)
      joins two midpoints of one triangle, both of them nodes; no added edge joins
      midpoints of different triangles except through a shared coincident midpoint. */
  lemma MedialEdgesStayInTriangle(g: Graph, points: seq<Point>, tri: seq<Triangle>, e: set<Point>)
    requires ValidTriangles(points, tri)
    requires MedialEdge(g.nodes, points, tri, e)
    ensures e <= g.nodes
    ensures exists i :: 0 <= i < |tri| && e <= Elements(SideMidpoints(Vertices(points, tri[i])))
  {
    var i, k :| 0 <= i < |tri| && MedialSide(g.nodes, Medial(points, tri, i), k, e);
    var m := Medial(points, tri, i);
    var a, b := m[k], m[Succ(k, 3)];
    assert e == {a, b} && a in g.nodes && b in g.nodes;
    assert a in Elements(m) && b in Elements(m);
  }

  // ---------------------------------------------------------------------------
  // The whole builder
  // ---------------------------------------------------------------------------

  /** A fresh `SG_graph` followed by `add_midpoint_to_SG` and `add_egdes_to_SG`. The built
      graph is well formed, its nodes are the triangle midpoints that are no boundary
      midpoint, and its edges are exactly the medial segments between two such nodes. */
  function BuildSearchGraph(points: seq<Point>, tri: seq<Triangle>, constraint: seq<Polygon>): (g: Graph)
    requires ValidTriangles(points, tri)
    ensures WellFormed(g)
    ensures g.nodes == Elements(TriMidpoints(points, tri)) - Elements(BoundaryMidpoints(constraint))
    ensures forall e :: e in g.edges <==> MedialEdge(g.nodes, points, tri, e)
  {
    FreshMidpointNodes(points, tri, constraint);
    AddEdgesToSG(AddMidpointsToSG(EmptyGraph, points, tri, constraint), points, tri)
  }

  /** Written constraint edge `i` has both ends inside the written vertex list. */
  predicate EdgeInRange(f: Dataset.ConstraintInput, i: int) {
    && 0 <= i < |f.edges|
    && 0 <= f.edges[i].0 < |f.vertices| && 0 <= f.edges[i].1 < |f.vertices|
  }

  /** The midpoint of written constraint edge `i`. */
  function WrittenMidpoint(f: Dataset.ConstraintInput, i: int): Point
    requires EdgeInRange(f, i)
  {
    Midpoint(f.vertices[f.edges[i].0], f.vertices[f.edges[i].1])
  }

  /** The constraint edges written for the triangulator and the boundary midpoints the
      builder filters out describe the same sides: when every polygon has four vertices,
      the midpoint of every written edge is a boundary midpoint, and every boundary
      midpoint is the midpoint of a written edge. */
  lemma ConstraintEdgesMatchBoundaryMidpoints(polys: seq<Polygon>)
    requires Dataset.Quads(polys)
    ensures var f := Dataset.WriteFixedData(polys);
      forall i :: 0 <= i < |f.edges| ==> EdgeInRange(f, i) && WrittenMidpoint(f, i) in BoundaryMidpoints(polys)
    ensures var f := Dataset.WriteFixedData(polys);
      forall p :: p in BoundaryMidpoints(polys) ==> exists i :: EdgeInRange(f, i) && p == WrittenMidpoint(f, i)
  {
    var f := Dataset.WriteFixedData(polys);
    forall i | 0 <= i < |f.edges|
      ensures EdgeInRange(f, i) && WrittenMidpoint(f, i) in BoundaryMidpoints(polys)
    {
      WrittenSideMidpoint(polys, i / 4, i % 4, i);
    }
    forall p | p in BoundaryMidpoints(polys)
      ensures exists i :: EdgeInRange(f, i) && p == WrittenMidpoint(f, i)
    {
      BoundaryMidpointMembership(polys, p);
      var idx, k :| 0 <= idx < |polys| && 0 <= k < |polys[idx]| && p == SideMidpoints(polys[idx])[k];
      WrittenSideMidpoint(polys, idx, k, 4 * idx + k);
    }
  }

  /** Written edge 4·idx + k has as midpoint the midpoint of side k of polygon idx, which
      is a boundary midpoint. */
  lemma WrittenSideMidpoint(polys: seq<Polygon>, idx: nat, k: nat, i: nat)
    requires Dataset.Quads(polys)
    requires idx < |polys| && k < 4 && i == 4 * idx + k
    ensures var f := Dataset.WriteFixedData(polys);
      && EdgeInRange(f, i)
      && WrittenMidpoint(f, i) == SideMidpoints(polys[idx])[k]
      && WrittenMidpoint(f, i) in BoundaryMidpoints(polys)
  {
    var f := Dataset.WriteFixedData(polys);
    Dataset.ConstraintEdgesAreSides(polys, idx, k, i);
    EdgeMidpoint(f, i, polys[idx][k], polys[idx][Succ(k, 4)]);
    QuadSideMidpoint(polys[idx], k);
    SideMidpointIsBoundary(polys, idx, k);
  }

  /** A written edge whose ends are in range and have the midpoint of `p` and `q` is in
      range and has that midpoint. */
  lemma EdgeMidpoint(f: Dataset.ConstraintInput, i: nat, p: Point, q: Point)
    requires i < |f.edges|
    requires var e := f.edges[i];
      && 0 <= e.0 < |f.vertices| && 0 <= e.1 < |f.vertices|
      && Midpoint(f.vertices[e.0], f.vertices[e.1]) == Midpoint(p, q)
    ensures EdgeInRange(f, i) && WrittenMidpoint(f, i) == Midpoint(p, q)
  {
  }

  /** Side k of a quadrilateral runs from corner k to corner (k+1) mod 4. */
  lemma QuadSideMidpoint(poly: Polygon, k: nat)
    requires |poly| == 4 && k < 4
    ensures SideMidpoints(poly)[k] == Midpoint(poly[k], poly[Succ(k, 4)])
  {
  }

  /** Every side midpoint of every constraint polygon is a boundary midpoint. */
  lemma SideMidpointIsBoundary(polys: seq<Polygon>, idx: nat, k: nat)
    requires idx < |polys| && k < |polys[idx]|
    ensures SideMidpoints(polys[idx])[k] in BoundaryMidpoints(polys)
  {
    var p := SideMidpoints(polys[idx])[k];
    BoundaryMidpointMembership(polys, p);
    assert 0 <= idx < |polys| && 0 <= k < |polys[idx]| && p == SideMidpoints(polys[idx])[k];
  }
}

=== FILE: dataset.dfy ===
/** The layout loader (src/Dataset.py, and its older copy model/Dataset.py, whose
    `get_data` is the same loop): components are routed to the d, f or w list by the
    first letter of their name, turned into corner polygons with the chip boundary
    appended last, and the polygons' sides are numbered as constraint edges for the
    triangulator. */
module Dataset {
  import opened Outcomes
  import opened Util

  /** One line of the layout file, split at tabs: the name, then the fields. */
  type Line = seq<string>

  /** A component's fields after its name: centre x, centre y, height, length. */
  type Fields = seq<string>

  /** The state of a `Dataset` instance: its d, f and w component lists. */
  datatype Lists = Lists(d: seq<Fields>, f: seq<Fields>, w: seq<Fields>)

  /** The lists of a freshly constructed instance. */
  const Fresh := Lists([], [], [])

  /** What `get_data` leaves behind: the lists after every line, or the exception it
      raised together with the lists as the lines before the failing one left them
      (the appends already made stay on the instance). */
  datatype LoadResult = Loaded(lists: Lists) | Raised(error: Error, partial: Lists)

  /** `lin[0][0]` exists: the line has a first field and it is not empty. */
  predicate HasName(lin: Line) {
    |lin| > 0 && |lin[0]| > 0
  }

  /** True when the line's name starts with `c`. */
  predicate NamedWith(lin: Line, c: char) {
    HasName(lin) && lin[0][0] == c
  }

  /** One turn of the classification loop: the fields go to the list the name's first
      letter selects, and a line starting with any other letter is dropped. */
  function Step(s: Lists, lin: Line): Lists
    requires HasName(lin)
  {
    var c := lin[0][0];
    if c == 'd' then s.(d := s.d + [lin[1..]])
    else if c == 'f' then s.(f := s.f + [lin[1..]])
    else if c == 'w' then s.(w := s.w + [lin[1..]])
    else s
  }

  // ---------------------------------------------------------------------------
  // Reference description of the routing
  // ---------------------------------------------------------------------------

  /** The fields of the lines whose name starts with `c`, in line order. */
  function Routed(lines: seq<Line>, c: char): seq<Fields> {
    if |lines| == 0 then []
    else
      var last := lines[|lines| - 1];
      Routed(lines[..|lines| - 1], c) + (if NamedWith(last, c) then [last[1..]] else [])
  }

  /** The named lines that go to none of the three lists. */
  function Discarded(lines: seq<Line>): seq<Line> {
    if |lines| == 0 then []
    else
      var last := lines[|lines| - 1];
      Discarded(lines[..|lines| - 1])
        + (if HasName(last) && last[0][0] !in "dfw" then [last] else [])
  }

  /** The lists `s` extended by the routed lines. */
  function Appended(s: Lists, lines: seq<Line>): Lists {
    Lists(s.d + Routed(lines, 'd'), s.f + Routed(lines, 'f'), s.w + Routed(lines, 'w'))
  }

  /** The index of the first line without a name, or |lines| when every line has one. */
  function FirstNameless(lines: seq<Line>): (k: nat)
    ensures k <= |lines|
    ensures forall i :: 0 <= i < k ==> HasName(lines[i])
    ensures k < |lines| ==> !HasName(lines[k])
  {
    if |lines| == 0 || !HasName(lines[0]) then 0 else 1 + FirstNameless(lines[1..])
  }

  /** Routing keeps line order: the lines of `a + b` route as those of `a` followed by
      those of `b`. */
  lemma {:induction false} RoutedConcat(a: seq<Line>, b: seq<Line>, c: char)
    ensures Routed(a + b, c) == Routed(a, c) + Routed(b, c)
  {
    if |b| > 0 {
      var ab := a + b;
      assert ab[..|ab| - 1] == a + b[..|b| - 1];
      RoutedConcat(a, b[..|b| - 1], c);
    } else {
      assert a + b == a;
    }
  }

  /** A field list is routed to `c` exactly when some line named with `c` carries it. */
  lemma {:induction false} RoutedMembership(lines: seq<Line>, c: char, x: Fields)
    ensures x in Routed(lines, c) <==>
      exists i :: 0 <= i < |lines| && NamedWith(lines[i], c) && x == lines[i][1..]
  {
    if |lines| > 0 {
      var init := lines[..|lines| - 1];
      RoutedMembership(init, c, x);
      assert forall i :: 0 <= i < |init| ==> init[i] == lines[i];
      if x in Routed(lines, c) && x !in Routed(init, c) {
        assert NamedWith(lines[|lines| - 1], c) && x == lines[|lines| - 1][1..];
      }
    }
  }

  /** Every named line goes to exactly one of the d, f, w lists or is discarded. */
  lemma {:induction false} RoutingPartitionsLines(lines: seq<Line>)
    requires forall i :: 0 <= i < |lines| ==> HasName(lines[i])
    ensures |Routed(lines, 'd')| + |Routed(lines, 'f')| + |Routed(lines, 'w')|
            + |Discarded(lines)| == |lines|
  {
    if |lines| > 0 {
      RoutingPartitionsLines(lines[..|lines| - 1]);
    }
  }

  // ---------------------------------------------------------------------------
  // get_data
  // ---------------------------------------------------------------------------

  /** `get_data` on an instance whose lists are `s`, over the lines of the file already
      split at tabs. Every line is routed in order; the first line whose name is missing
      or empty (the empty last line a trailing newline leaves, for one) raises
      IndexError at `lin[0][0]`, after the lines before it were routed. */
  function Load(s: Lists, lines: seq<Line>): (r: LoadResult)
    ensures FirstNameless(lines) == |lines| ==> r == Loaded(Appended(s, lines))
    ensures FirstNameless(lines) < |lines| ==>
      r == Raised(IndexError, Appended(s, lines[..FirstNameless(lines)]))
    decreases |lines|
  {
    if |lines| == 0 then
      assert Appended(s, lines) == s;
      Loaded(s)
    else if !HasName(lines[0]) then
      assert Appended(s, lines[..0]) == s by {
        assert lines[..0] == [];
      }
      Raised(IndexError, s)
    else
      NamelessAfterFirst(lines);
      StepAll(s, lines);
      StepPrefix(s, lines);
      Load(Step(s, lines[0]), lines[1..])
  }

  /** One step appends the routed form of a one-line file. */
  lemma StepRoutes(s: Lists, lin: Line)
    requires HasName(lin)
    ensures Step(s, lin) == Appended(s, [lin])
  {
    assert [lin][..0] == [];
    assert Routed([lin], 'd') == if NamedWith(lin, 'd') then [lin[1..]] else [];
    assert Routed([lin], 'f') == if NamedWith(lin, 'f') then [lin[1..]] else [];
    assert Routed([lin], 'w') == if NamedWith(lin, 'w') then [lin[1..]] else [];
  }

  /** Appending `a` and then `b` is appending `a + b`. */
  lemma AppendedConcat(s: Lists, a: seq<Line>, b: seq<Line>)
    ensures Appended(Appended(s, a), b) == Appended(s, a + b)
  {
    AppendedConcatField(s.d, a, b, 'd');
    AppendedConcatField(s.f, a, b, 'f');
    AppendedConcatField(s.w, a, b, 'w');
  }

  /** Appending to one list: the routed lines of `a` and then those of `b` are the
      routed lines of `a + b`. */
  lemma AppendedConcatField(l: seq<seq<string>>, a: seq<Line>, b: seq<Line>, c: char)
    ensures (l + Routed(a, c)) + Routed(b, c) == l + Routed(a + b, c)
  {
    RoutedConcat(a, b, c);
  }

  /** Routing the first line and then the others up to the first nameless one is
      routing the whole prefix. */
  lemma StepPrefix(s: Lists, lines: seq<Line>)
    requires |lines| > 0 && HasName(lines[0])
    ensures var k := FirstNameless(lines[1..]);
      Appended(Step(s, lines[0]), lines[1..][..k]) == Appended(s, lines[..k + 1])
  {
    ConsPrefix(s, lines, FirstNameless(lines[1..]));
  }

  /** Past a named first line, the first nameless line is one further on. */
  lemma NamelessAfterFirst(lines: seq<Line>)
    requires |lines| > 0 && HasName(lines[0])
    ensures FirstNameless(lines) == 1 + FirstNameless(lines[1..])
  {
  }

  /** Routing the first line and then the others is routing them all. */
  lemma StepAll(s: Lists, lines: seq<Line>)
    requires |lines| > 0 && HasName(lines[0])
    ensures Appended(Step(s, lines[0]), lines[1..]) == Appended(s, lines)
  {
    ConsPrefix(s, lines, |lines| - 1);
    assert lines[..|lines|] == lines;
    assert lines[1..][..|lines| - 1] == lines[1..];
  }

  lemma ConsPrefix(s: Lists, lines: seq<Line>, k: nat)
    requires |lines| > 0 && HasName(lines[0]) && k < |lines|
    ensures Appended(Step(s, lines[0]), lines[1..][..k]) == Appended(s, lines[..k + 1])
  {
    AppendedCons(s, lines[0], lines[1..][..k]);
    assert [lines[0]] + lines[1..][..k] == lines[..k + 1];
  }

  /** Routing one named line and then `rest` is routing `[lin] + rest`. */
  lemma AppendedCons(s: Lists, lin: Line, rest: seq<Line>)
    requires HasName(lin)
    ensures Appended(Step(s, lin), rest) == Appended(s, [lin] + rest)
  {
    StepRoutes(s, lin);
    AppendedConcat(s, [lin], rest);
  }

  /** The lists are instance state: a second `get_data` over the same well-formed lines
      appends them all again, so the call is not idempotent once any line is routed. */
  lemma LoadAccumulates(s: Lists, lines: seq<Line>)
    requires forall i :: 0 <= i < |lines| ==> HasName(lines[i])
    ensures Load(s, lines).Loaded?
    ensures Load(Load(s, lines).lists, lines).Loaded?
    ensures var twice := Load(Load(s, lines).lists, lines).lists;
      twice.d == s.d + Routed(lines, 'd') + Routed(lines, 'd')
      && twice.f == s.f + Routed(lines, 'f') + Routed(lines, 'f')
      && twice.w == s.w + Routed(lines, 'w') + Routed(lines, 'w')
  {
    LoadAllNamed(s, lines);
    LoadAllNamed(Appended(s, lines), lines);
  }

  /** So a second call changes the lists as soon as one line is routed. */
  lemma LoadNotIdempotent(s: Lists, lines: seq<Line>, i: nat)
    requires forall i :: 0 <= i < |lines| ==> HasName(lines[i])
    requires i < |lines| && HasName(lines[i]) && lines[i][0][0] in "dfw"
    ensures Load(Load(s, lines).lists, lines) != Load(s, lines)
  {
    LoadAccumulates(s, lines);
    var c := lines[i][0][0];
    RoutedMembership(lines, c, lines[i][1..]);
    assert |Routed(lines, c)| > 0;
  }

  /** When every line has a name, `get_data` returns the lists with all lines routed. */
  lemma LoadAllNamed(s: Lists, lines: seq<Line>)
    requires forall i :: 0 <= i < |lines| ==> HasName(lines[i])
    ensures Load(s, lines) == Loaded(Appended(s, lines))
  {
    assert FirstNameless(lines) == |lines|;
  }

  /** The first `get_data` on a freshly constructed instance returns, for a file whose
      lines are all named, exactly the routed lines: the d, f and w lists start empty. */
  lemma LoadFresh(lines: seq<Line>)
    requires forall i :: 0 <= i < |lines| ==> HasName(lines[i])
    ensures Load(Fresh, lines) == Loaded(Lists(Routed(lines, 'd'), Routed(lines, 'f'), Routed(lines, 'w')))
  {
    LoadAllNamed(Fresh, lines);
    AppendedToFresh(lines);
  }

  /** Appending to the empty lists leaves just the routed lines. */
  lemma AppendedToFresh(lines: seq<Line>)
    ensures Appended(Fresh, lines) == Lists(Routed(lines, 'd'), Routed(lines, 'f'), Routed(lines, 'w'))
  {
    var rd, rf, rw := Routed(lines, 'd'), Routed(lines, 'f'), Routed(lines, 'w');
    assert [] + rd == rd;
    assert [] + rf == rf;
    assert [] + rw == rw;
  }

  /** Every polygon has four vertices. */
  predicate Quads(polys: seq<Polygon>) {
    forall i :: 0 <= i < |polys| ==> |polys[i]| == 4
  }

  // ---------------------------------------------------------------------------
  // process_data2list
  // ---------------------------------------------------------------------------

  /** The chip boundary `[[0,70],[0,0],[70,0],[70,70]]`. */
  const ChipBoundary: Polygon := [Point(0.0, 70.0), Point(0.0, 0.0), Point(70.0, 0.0), Point(70.0, 70.0)]

  /** `process_data2list`: runs `get_data` on the instance (so its lists grow, as
      `Load` says) and returns the corner polygons of the d components, then the f
      components, then the w components, and the chip boundary last. */
  function ProcessData2List(s: Lists, lines: seq<Line>): (r: Result<seq<Polygon>>)
    ensures Load(s, lines).Raised? ==> r == Err(Load(s, lines).error)
    ensures Load(s, lines).Loaded? ==>
      var ls := Load(s, lines).lists;
      (r.Ok? <==> AllConvert(ls.d) && AllConvert(ls.f) && AllConvert(ls.w))
    ensures r.Ok? ==> Load(s, lines).Loaded?
    ensures r.Ok? ==> Quads(r.value) && CornerList(Load(s, lines).lists, r.value)
    ensures Load(s, lines).Loaded? && r.Err? ==> ListsFailure(Load(s, lines).lists, r.error)
  {
    match Load(s, lines)
    case Raised(e, _) => Err(e)
    case Loaded(ls) => Corners(ls)
  }

  /** The corner polygons of all loaded components and the chip boundary: available
      exactly when every component converts, and then laid out as `CornerList` says. */
  function Corners(ls: Lists): (r: Result<seq<Polygon>>)
    ensures r.Ok? <==> AllConvert(ls.d) && AllConvert(ls.f) && AllConvert(ls.w)
    ensures r.Ok? ==> Quads(r.value) && CornerList(ls, r.value)
    ensures r.Err? ==> ListsFailure(ls, r.error)
  {
    FourVerticesConverts(ls.d);
    FourVerticesConverts(ls.f);
    FourVerticesConverts(ls.w);
    match FourVertices(ls.d)
    case Err(e) =>
      FourVerticesFirstFailure(ls.d);
      Err(e)
    case Ok(pd) =>
      match FourVertices(ls.f)
      case Err(e) =>
        FourVerticesFirstFailure(ls.f);
        Err(e)
      case Ok(pf) =>
        match FourVertices(ls.w)
        case Err(e) =>
          FourVerticesFirstFailure(ls.w);
          Err(e)
        case Ok(pw) =>
          PartIsBlock(ls.d, pd);
          PartIsBlock(ls.f, pf);
          PartIsBlock(ls.w, pw);
          CornerListOfParts(ls, pd, pf, pw);
          QuadsOfParts(pd, pf, pw);
          Ok(pd + pf + pw + [ChipBoundary])
  }

  /** `e` is what converting the lists in the order d, f, w raises first: the exception
      of the first failing d component, else of the first failing f component, else of
      the first failing w component. */
  ghost predicate ListsFailure(ls: Lists, e: Error) {
    || FirstComponentFailure(ls.d, e)
    || (AllConvert(ls.d) && FirstComponentFailure(ls.f, e))
    || (AllConvert(ls.d) && AllConvert(ls.f) && FirstComponentFailure(ls.w, e))
  }

  /** `polys` holds the corners of the d components, then of the f components, then of
      the w components, and the chip boundary last. */
  ghost predicate CornerList(ls: Lists, polys: seq<Polygon>) {
    var nd, nf := |ls.d|, |ls.f|;
    && |polys| == nd + nf + |ls.w| + 1
    && polys[|polys| - 1] == ChipBoundary
    && CornerBlock(ls.d, polys, 0)
    && CornerBlock(ls.f, polys, nd)
    && CornerBlock(ls.w, polys, nd + nf)
  }

  /** From position `off` on, `polys` holds the corners of `comps`, one per component. */
  ghost predicate CornerBlock(comps: seq<Fields>, polys: seq<Polygon>, off: nat) {
    && off + |comps| <= |polys|
    && forall i :: 0 <= i < |comps| ==> OnlyOneVertices(comps[i]) == Ok(polys[off + i])
  }

  /** A converted list holds the corners of its components, one quadrilateral each. */
  lemma PartIsBlock(comps: seq<Fields>, part: seq<Polygon>)
    requires FourVertices(comps) == Ok(part)
    ensures |part| == |comps| && CornerBlock(comps, part, 0) && Quads(part)
  {
    FourVerticesConverts(comps);
  }

  /** A block stays a block when its list is embedded at offset `off`. */
  lemma BlockShift(comps: seq<Fields>, part: seq<Polygon>, polys: seq<Polygon>, off: nat)
    requires |part| == |comps| && CornerBlock(comps, part, 0)
    requires off + |part| <= |polys| && polys[off..off + |part|] == part
    ensures CornerBlock(comps, polys, off)
  {
    forall i | 0 <= i < |part|
      ensures polys[off + i] == part[i]
    {
      assert polys[off..off + |part|][i] == polys[off + i];
    }
  }

  lemma CornerListOfParts(ls: Lists, pd: seq<Polygon>, pf: seq<Polygon>, pw: seq<Polygon>)
    requires |pd| == |ls.d| && CornerBlock(ls.d, pd, 0)
    requires |pf| == |ls.f| && CornerBlock(ls.f, pf, 0)
    requires |pw| == |ls.w| && CornerBlock(ls.w, pw, 0)
    ensures CornerList(ls, pd + pf + pw + [ChipBoundary])
  {
    var r := pd + pf + pw + [ChipBoundary];
    var a, b := |pd|, |pd| + |pf|;
    assert r[0..a] == pd;
    assert r[a..b] == pf;
    assert r[b..b + |pw|] == pw;
    BlockShift(ls.d, pd, r, 0);
    BlockShift(ls.f, pf, r, a);
    BlockShift(ls.w, pw, r, b);
  }

  /** Quadrilaterals followed by the chip boundary are quadrilaterals. */
  lemma QuadsOfParts(pd: seq<Polygon>, pf: seq<Polygon>, pw: seq<Polygon>)
    requires Quads(pd) && Quads(pf) && Quads(pw)
    ensures Quads(pd + pf + pw + [ChipBoundary])
  {
    var r := pd + pf + pw + [ChipBoundary];
    forall i | 0 <= i < |r|
      ensures |r[i]| == 4
    {
      if i < |pd| {
        assert r[i] == pd[i];
      } else if i < |pd| + |pf| {
        assert r[i] == pf[i - |pd|];
      } else if i < |pd| + |pf| + |pw| {
        assert r[i] == pw[i - |pd| - |pf|];
      } else {
        assert r[i] == ChipBoundary;
      }
    }
  }

  // ---------------------------------------------------------------------------
  // write_fixed_data: the triangulator's constraint input
  // ---------------------------------------------------------------------------

  /** `index_pair`: the sides of one quadrilateral as 1-based vertex pairs. */
  const QuadPairs: seq<(int, int)> := [(1, 2), (2, 3), (3, 4), (1, 4)]

  /** `final_index` for `count` polygons: `index_pair + 4 * idx` for idx = 0 .. count-1.
      Every pair is increasing and lies within the 1-based numbering of the 4·count
      vertices, inside its own polygon's block of four. */
  function IndexPairs(count: nat): (r: seq<(int, int)>)
    ensures |r| == 4 * count
    ensures forall i :: 0 <= i < |r| ==>
      4 * (i / 4) + 1 <= r[i].0 < r[i].1 <= 4 * (i / 4) + 4
  {
    if count == 0 then []
    else
      var prev := IndexPairs(count - 1);
      var shift := 4 * (count - 1);
      var r := prev + seq(4, j requires 0 <= j < 4 => (QuadPairs[j].0 + shift, QuadPairs[j].1 + shift));
      assert forall i :: |prev| <= i < |r| ==> i / 4 == count - 1;
      r
  }

  /** The vertices of all polygons, polygon after polygon, as they are written to the
      triangulator's input. */
  function Flatten<T>(xss: seq<seq<T>>): (r: seq<T>)
    ensures |r| == TotalSize(xss)
  {
    if |xss| == 0 then [] else xss[0] + Flatten(xss[1..])
  }

  /** When every polygon has four vertices, vertex `k` of polygon `i` is entry
      `4i + k` of the flattened vertex list. */
  lemma {:induction false} FlattenQuads<T>(xss: seq<seq<T>>, i: nat, k: nat)
    requires forall j :: 0 <= j < |xss| ==> |xss[j]| == 4
    requires i < |xss| && k < 4
    ensures TotalSize(xss) == 4 * |xss|
    ensures 4 * i + k < |Flatten(xss)| && Flatten(xss)[4 * i + k] == xss[i][k]
  {
    if i == 0 {
      QuadsSize(xss);
    } else {
      FlattenQuads(xss[1..], i - 1, k);
      QuadsSize(xss);
    }
  }

  lemma {:induction false} QuadsSize<T>(xss: seq<seq<T>>)
    requires forall j :: 0 <= j < |xss| ==> |xss[j]| == 4
    ensures TotalSize(xss) == 4 * |xss|
  {
    if |xss| > 0 {
      QuadsSize(xss[1..]);
    }
  }

  /** The contents of the triangulator input file: the header counts, the vertices and
      the 0-based constraint edges. */
  datatype ConstraintInput = ConstraintInput(vertexCount: nat, edgeCount: nat,
                                             vertices: seq<Point>, edges: seq<(int, int)>)

  /** `write_fixed_data` without the file: the vertex count is the sum of the polygon
      sizes, the edge count is `len(final_index)`, vertices follow polygon order, and
      each written pair is `final_index`'s pair minus one. */
  function WriteFixedData(polys: seq<Polygon>): (r: ConstraintInput)
    ensures r.vertexCount == |r.vertices| == TotalSize(polys)
    ensures r.edgeCount == |r.edges| == 4 * |polys|
    ensures forall idx, k :: 0 <= idx < |polys| && 0 <= k < 4 ==> IsSide(r.edges, idx, k)
  {
    var pairs := IndexPairs(|polys|);
    var edges := ZeroBased(pairs);
    forall idx, k | 0 <= idx < |polys| && 0 <= k < 4
      ensures IsSide(edges, idx, k)
    {
      WrittenPairIsSide(|polys|, idx, k);
    }
    ConstraintInput(TotalSize(polys), |pairs|, Flatten(polys), edges)
  }

  /** The 1-based pairs made 0-based, as the file lines `a-1 b-1` hold them. */
  function ZeroBased(pairs: seq<(int, int)>): (r: seq<(int, int)>)
    ensures |r| == |pairs|
    ensures forall i :: 0 <= i < |pairs| ==> r[i].0 + 1 == pairs[i].0 && r[i].1 + 1 == pairs[i].1
  {
    seq(|pairs|, i requires 0 <= i < |pairs| => (pairs[i].0 - 1, pairs[i].1 - 1))
  }

  lemma WrittenPairIsSide(count: nat, idx: nat, k: nat)
    requires idx < count && k < 4
    ensures 4 * idx + k < 4 * count
    ensures IsSide(ZeroBased(IndexPairs(count)), idx, k)
  {
    var pairs := IndexPairs(count);
    IndexPairsAt(count, idx, k);
    ZeroBasedAt(pairs, 4 * idx + k);
    QuadPairIsSide(k);
    ShiftedJoins(QuadPairs[k].0 - 1, QuadPairs[k].1 - 1, k, Succ(k, 4), 4 * idx);
  }

  /** Entry i of the 0-based pairs is entry i of the 1-based ones, less one. */
  lemma ZeroBasedAt(pairs: seq<(int, int)>, i: nat)
    requires i < |pairs|
    ensures i < |ZeroBased(pairs)| && ZeroBased(pairs)[i] == (pairs[i].0 - 1, pairs[i].1 - 1)
  {
  }

  /** Shifting a pair and its two ends by the same amount keeps them joined. */
  lemma ShiftedJoins(a: int, b: int, x: int, y: int, d: int)
    requires Joins((a, b), x, y)
    ensures Joins((a + d, b + d), d + x, d + y)
  {
  }

  /** `index_pair[k]`, made 0-based, joins vertex k and vertex (k+1) mod 4. */
  lemma QuadPairIsSide(k: nat)
    requires k < 4
    ensures Joins((QuadPairs[k].0 - 1, QuadPairs[k].1 - 1), k, Succ(k, 4))
  {
  }

  /** Written edge 4·idx + k joins, in either order, vertices 4·idx + k and
      4·idx + (k+1) mod 4: the four edges of polygon idx close a 4-cycle over its
      own block of vertices. */
  predicate IsSide(edges: seq<(int, int)>, idx: nat, k: nat)
    requires k < 4 && 4 * idx + k < |edges|
  {
    Joins(edges[4 * idx + k], 4 * idx + k, 4 * idx + Succ(k, 4))
  }

  /** The pair `e` joins `a` and `b`, in either order. */
  predicate Joins<T(==)>(e: (T, T), a: T, b: T) {
    (e.0 == a && e.1 == b) || (e.0 == b && e.1 == a)
  }

  /** Pair `k` of polygon `idx` in `final_index` is `index_pair[k]` shifted by 4·idx. */
  lemma {:induction false} IndexPairsAt(count: nat, idx: nat, k: nat)
    requires idx < count && k < 4
    ensures IndexPairs(count)[4 * idx + k] == (QuadPairs[k].0 + 4 * idx, QuadPairs[k].1 + 4 * idx)
  {
    if idx < count - 1 {
      IndexPairsAt(count - 1, idx, k);
    }
  }

  /** When every polygon has four vertices, the written edges are exactly the polygons'
      sides: edge 4·idx + k joins vertex k and vertex (k+1) mod 4 of polygon idx, and
      every index is a valid 0-based vertex index. */
  lemma ConstraintEdgesAreSides(polys: seq<Polygon>, idx: nat, k: nat, i: nat)
    requires Quads(polys)
    requires idx < |polys| && k < 4 && i == 4 * idx + k
    ensures i < |WriteFixedData(polys).edges|
    ensures var r := WriteFixedData(polys); var e := r.edges[i];
      && 0 <= e.0 < |r.vertices| && 0 <= e.1 < |r.vertices|
      && Joins((r.vertices[e.0], r.vertices[e.1]), polys[idx][k], polys[idx][Succ(k, 4)])
      && Midpoint(r.vertices[e.0], r.vertices[e.1]) == Midpoint(polys[idx][k], polys[idx][Succ(k, 4)])
  {
    var r := WriteFixedData(polys);
    WrittenParts(polys);
    WrittenPairIsSide(|polys|, idx, k);
    QuadCorners(polys, idx, k);
    JoinedEnds(r.vertices, r.edges[4 * idx + k], 4 * idx + k, 4 * idx + Succ(k, 4),
               polys[idx][k], polys[idx][Succ(k, 4)]);
  }

  /** What `write_fixed_data` writes, named by its parts: the flattened vertices and the
      0-based index pairs. */
  lemma WrittenParts(polys: seq<Polygon>)
    ensures WriteFixedData(polys).vertices == Flatten(polys)
    ensures WriteFixedData(polys).edges == ZeroBased(IndexPairs(|polys|))
  {
  }

  /** Corners k and (k+1) mod 4 of quadrilateral idx sit at positions 4·idx + k and
      4·idx + (k+1) mod 4 of the written vertex list. */
  lemma QuadCorners(polys: seq<Polygon>, idx: nat, k: nat)
    requires Quads(polys)
    requires idx < |polys| && k < 4
    ensures 4 * idx + k < |Flatten(polys)| && Flatten(polys)[4 * idx + k] == polys[idx][k]
    ensures 4 * idx + Succ(k, 4) < |Flatten(polys)|
    ensures Flatten(polys)[4 * idx + Succ(k, 4)] == polys[idx][Succ(k, 4)]
  {
    FlattenQuads(polys, idx, k);
    FlattenQuads(polys, idx, Succ(k, 4));
  }

  /** An index pair joining positions `a` and `b`, which hold `p` and `q`, joins `p` and
      `q` and has their midpoint. */
  lemma JoinedEnds(vs: seq<Point>, e: (int, int), a: nat, b: nat, p: Point, q: Point)
    requires a < |vs| && b < |vs| && vs[a] == p && vs[b] == q && Joins(e, a, b)
    ensures 0 <= e.0 < |vs| && 0 <= e.1 < |vs|
    ensures Joins((vs[e.0], vs[e.1]), p, q) && Midpoint(vs[e.0], vs[e.1]) == Midpoint(p, q)
  {
  }
}

=== FILE: outcomes.dfy ===
/** Failure-carrying values for the modelled Python code: an optional value, and a
    result that is either a value or the exception the Python code would raise. */
module Outcomes {

  datatype Option<+T> = None | Some(value: T)

  /** The Python exceptions the modelled operations can raise.
      IndexError: a list or string index past its end (`lin[0][0]` on an empty name,
                  `com_list[3]` on a short field list, a pair of fewer than two points);
      ValueError: `int()` applied to a field that is not an integer literal. */
  datatype Error = IndexError | ValueError

  datatype Result<+T> = Ok(value: T) | Err(error: Error)
}

=== FILE: util.dfy ===
/** Plane geometry and the integer fields of a component line (src/util.py):
    points, midpoints, the `int()` conversion of a field, a component's centre and
    the four corners of its rectangle. */
module Util {
  import opened Outcomes

  /** A plane point. Coordinates are exact reals, so two computed points coincide
      exactly when their coordinates are equal. */
  datatype Point = Point(x: real, y: real)

  /** A polygon as its vertex list; cyclically consecutive vertices are its sides. */
  type Polygon = seq<Point>

  /** The point halfway between `a` and `b`: it is as far from `a` as `b` is from it,
      coordinate by coordinate. */
  function Midpoint(a: Point, b: Point): (m: Point)
    ensures m.x - a.x == b.x - m.x && m.y - a.y == b.y - m.y
  {
    Point((a.x + b.x) / 2.0, (a.y + b.y) / 2.0)
  }

  /** `calculate_midpoint_with2points`: the midpoint of the first two points of a
      point array; fewer than two points is an IndexError. The result does not
      depend on which of the two points comes first. */
  function MidpointOfPair(ps: seq<Point>): (r: Result<Point>)
    ensures r.Ok? <==> |ps| >= 2
    ensures r.Ok? ==> r.value == Midpoint(ps[1], ps[0])
    ensures r.Err? ==> r.error == IndexError
  {
    if |ps| < 2 then Err(IndexError) else Ok(Midpoint(ps[0], ps[1]))
  }

  // ---------------------------------------------------------------------------
  // int() on a text field
  // ---------------------------------------------------------------------------

  predicate IsDigit(c: char) {
    '0' <= c <= '9'
  }

  predicate AllDigits(s: string) {
    forall i :: 0 <= i < |s| ==> IsDigit(s[i])
  }

  /** The value of a decimal digit string, most significant digit first. */
  function DigitsValue(s: string): nat
    requires AllDigits(s)
  {
    if |s| == 0 then 0
    else DigitsValue(s[..|s| - 1]) * 10 + (s[|s| - 1] as int - '0' as int)
  }

  /** The texts `int()` accepts in this model: decimal digits with an optional sign. */
  predicate IsIntLiteral(s: string) {
    || (|s| > 0 && AllDigits(s))
    || (|s| > 1 && (s[0] == '+' || s[0] == '-') && AllDigits(s[1..]))
  }

  /** Python's `int(field)`: `None` stands for the ValueError it raises. The sign of
      the result follows the sign character. */
  function ParseInt(s: string): (r: Option<int>)
    ensures r.Some? <==> IsIntLiteral(s)
    ensures r.Some? && s[0] == '-' ==> r.value <= 0
    ensures r.Some? && s[0] != '-' ==> r.value >= 0
  {
    if |s| > 0 && AllDigits(s) then Some(DigitsValue(s))
    else if |s| > 1 && s[0] == '+' && AllDigits(s[1..]) then Some(DigitsValue(s[1..]))
    else if |s| > 1 && s[0] == '-' && AllDigits(s[1..]) then Some(0 - DigitsValue(s[1..]))
    else None
  }

  function DigitChar(d: nat): (c: char)
    requires d < 10
    ensures IsDigit(c) && c as int - '0' as int == d
  {
    ('0' as int + d) as char
  }

  /** The decimal text of a natural number, as `str()` writes it. */
  function ShowNat(n: nat): (s: string)
    ensures |s| > 0 && AllDigits(s)
  {
    if n < 10 then [DigitChar(n)] else ShowNat(n / 10) + [DigitChar(n % 10)]
  }

  /** The decimal text of an integer, as `str()` writes it: a layout file's field. */
  function Show(n: int): string {
    if n < 0 then "-" + ShowNat(-n) else ShowNat(n)
  }

  lemma {:induction false} DigitsValueOfShowNat(n: nat)
    ensures DigitsValue(ShowNat(n)) == n
  {
    var s := ShowNat(n);
    if n >= 10 {
      DigitsValueOfShowNat(n / 10);
      assert s[..|s| - 1] == ShowNat(n / 10);
    }
  }

  /** `int()` reads back every integer written in decimal. */
  lemma ParseShow(n: int)
    ensures ParseInt(Show(n)) == Some(n)
  {
    if n < 0 {
      DigitsValueOfShowNat(-n);
      assert Show(n)[1..] == ShowNat(-n);
    } else {
      DigitsValueOfShowNat(n);
    }
  }

  // ---------------------------------------------------------------------------
  // Component fields: centre, height and length
  // ---------------------------------------------------------------------------

  /** True when `e` is the exception that converting the first `n` fields, left to
      right, raises first: some field `k < n` is the first one missing (IndexError)
      or the first one that is not an integer (ValueError). */
  ghost predicate FirstFieldFailure(fields: seq<string>, n: nat, e: Error) {
    exists k :: 0 <= k < n && FieldFailsAt(fields, k, e)
  }

  /** Fields 0 .. k-1 convert, and field `k` raises `e`. */
  ghost predicate FieldFailsAt(fields: seq<string>, k: nat, e: Error) {
    && (forall i :: 0 <= i < k ==> i < |fields| && ParseInt(fields[i]).Some?)
    && (if k < |fields| then ParseInt(fields[k]).None? && e == ValueError
        else e == IndexError)
  }

  /** `int(com_list[0])`, …, `int(com_list[n-1])` in that order; fields past `n`
      are ignored. */
  function ParseFields(fields: seq<string>, n: nat): (r: Result<seq<int>>)
    ensures r.Ok? <==> n <= |fields| && forall i :: 0 <= i < n ==> ParseInt(fields[i]).Some?
    ensures r.Ok? ==> |r.value| == n && forall i :: 0 <= i < n ==> ParseInt(fields[i]) == Some(r.value[i])
    ensures r.Err? ==> FirstFieldFailure(fields, n, r.error)
  {
    if n == 0 then Ok([])
    else
      match ParseFields(fields, n - 1)
      case Err(e) => Err(e)
      case Ok(prefix) =>
        if n - 1 >= |fields| then
          assert FieldFailsAt(fields, n - 1, IndexError);
          Err(IndexError)
        else
          match ParseInt(fields[n - 1])
          case None =>
            assert FieldFailsAt(fields, n - 1, ValueError);
            Err(ValueError)
          case Some(v) => Ok(prefix + [v])
  }

  /** `get_compo_center`: the integer centre (fields[0], fields[1]) of a component. */
  function CompoCenter(fields: seq<string>): (r: Result<(int, int)>)
    ensures r.Ok? <==> |fields| >= 2 && ParseInt(fields[0]).Some? && ParseInt(fields[1]).Some?
    ensures r.Ok? ==> ParseInt(fields[0]) == Some(r.value.0) && ParseInt(fields[1]) == Some(r.value.1)
    ensures r.Err? ==> FirstFieldFailure(fields, 2, r.error)
  {
    match ParseFields(fields, 2)
    case Err(e) => Err(e)
    case Ok(v) => Ok((v[0], v[1]))
  }

  /** The corners of the rectangle with centre (cx, cy), height `h` and length `l`,
      in the order left-top, left-down, right-down, right-top. Left corners share an
      x, right corners share an x, top corners share a y, bottom corners share a y;
      the x-span is the length, the y-span the height, and the corners' mean is the
      centre. */
  function RectCorners(cx: int, cy: int, h: int, l: int): (r: Polygon)
    ensures |r| == 4
    ensures r[0].x == r[1].x && r[2].x == r[3].x
    ensures r[0].y == r[3].y && r[1].y == r[2].y
    ensures r[3].x - r[0].x == l as real && r[0].y - r[1].y == h as real
    ensures (r[0].x + r[1].x + r[2].x + r[3].x) / 4.0 == cx as real
    ensures (r[0].y + r[1].y + r[2].y + r[3].y) / 4.0 == cy as real
  {
    var x, y := cx as real, cy as real;
    var hh, hl := h as real / 2.0, l as real / 2.0;
    [Point(x - hl, y + hh), Point(x - hl, y - hh), Point(x + hl, y - hh), Point(x + hl, y + hh)]
  }

  /** `cal_only_one_verticles`: the four corners of one component, read from its
      fields [centre x, centre y, height, length]. */
  function OnlyOneVertices(fields: seq<string>): (r: Result<Polygon>)
    ensures r.Ok? <==> 4 <= |fields| && forall i :: 0 <= i < 4 ==> ParseInt(fields[i]).Some?
    ensures r.Ok? ==> |r.value| == 4
    ensures r.Err? ==> FirstFieldFailure(fields, 4, r.error)
  {
    match ParseFields(fields, 4)
    case Err(e) => Err(e)
    case Ok(v) => Ok(RectCorners(v[0], v[1], v[2], v[3]))
  }

  /** The corners `cal_only_one_verticles` returns are those of the rectangle whose
      centre, height and length are the integers its first four fields hold. */
  lemma OnlyOneVerticesCorners(fields: seq<string>)
    requires OnlyOneVertices(fields).Ok?
    ensures exists cx, cy, h, l ::
      && ParseInt(fields[0]) == Some(cx) && ParseInt(fields[1]) == Some(cy)
      && ParseInt(fields[2]) == Some(h) && ParseInt(fields[3]) == Some(l)
      && OnlyOneVertices(fields).value == RectCorners(cx, cy, h, l)
  {
    var v := ParseFields(fields, 4).value;
    assert ParseInt(fields[0]) == Some(v[0]) && ParseInt(fields[1]) == Some(v[1]);
    assert ParseInt(fields[2]) == Some(v[2]) && ParseInt(fields[3]) == Some(v[3]);
  }

  /** The mean of a component's corners is its centre. */
  lemma CornersMeanIsCenter(fields: seq<string>)
    requires OnlyOneVertices(fields).Ok?
    ensures CompoCenter(fields).Ok?
    ensures var c, r := CompoCenter(fields).value, OnlyOneVertices(fields).value;
      && (r[0].x + r[1].x + r[2].x + r[3].x) / 4.0 == c.0 as real
      && (r[0].y + r[1].y + r[2].y + r[3].y) / 4.0 == c.1 as real
  {
  }

  /** Components 0 .. k-1 convert, and component `k` raises `e`. */
  ghost predicate ComponentFailsAt(comps: seq<seq<string>>, k: nat, e: Error)
    requires k < |comps|
  {
    && (forall i :: 0 <= i < k ==> OnlyOneVertices(comps[i]).Ok?)
    && OnlyOneVertices(comps[k]) == Err(e)
  }

  /** Some component is the first whose fields fail, and it raises `e`. */
  ghost predicate FirstComponentFailure(comps: seq<seq<string>>, e: Error) {
    exists k :: 0 <= k < |comps| && ComponentFailsAt(comps, k, e)
  }

  /** Every component's fields convert to corners. */
  predicate AllConvert(comps: seq<seq<string>>) {
    forall i :: 0 <= i < |comps| ==> OnlyOneVertices(comps[i]).Ok?
  }

  /** `cal_four_verticles_v2` (and the vertices inside `cal_four_verticles`' paths):
      the corner lists of the components in input order; the first component whose
      fields fail raises that component's exception. */
  function FourVertices(comps: seq<seq<string>>): (r: Result<seq<Polygon>>)
    ensures r.Ok? ==> |r.value| == |comps|
  {
    if |comps| == 0 then Ok([])
    else
      match OnlyOneVertices(comps[0])
      case Err(e) => Err(e)
      case Ok(p) =>
        match FourVertices(comps[1..])
        case Err(e) => Err(e)
        case Ok(ps) => Ok([p] + ps)
  }

  /** The corner lists are produced exactly when every component converts, and then
      entry i holds the corners of component i. */
  lemma {:induction false} FourVerticesConverts(comps: seq<seq<string>>)
    ensures FourVertices(comps).Ok? <==> AllConvert(comps)
    ensures FourVertices(comps).Ok? ==>
      forall i :: 0 <= i < |comps| ==> OnlyOneVertices(comps[i]) == Ok(FourVertices(comps).value[i])
  {
    FourVerticesOk(comps);
    if FourVertices(comps).Ok? {
      FourVerticesEntries(comps);
    }
  }

  /** The corner lists are produced exactly when every component converts. */
  lemma {:induction false} FourVerticesOk(comps: seq<seq<string>>)
    ensures FourVertices(comps).Ok? <==> AllConvert(comps)
  {
    if |comps| > 0 {
      FourVerticesOk(comps[1..]);
      assert forall i :: 1 <= i < |comps| ==> comps[i] == comps[1..][i - 1];
    }
  }

  /** Produced corner list i holds the corners of component i. */
  lemma {:induction false} FourVerticesEntries(comps: seq<seq<string>>)
    requires FourVertices(comps).Ok?
    ensures forall i :: 0 <= i < |comps| ==> OnlyOneVertices(comps[i]) == Ok(FourVertices(comps).value[i])
  {
    if |comps| > 0 {
      FourVerticesEntries(comps[1..]);
      var r, ps := FourVertices(comps).value, FourVertices(comps[1..]).value;
      assert r == [r[0]] + ps;
      forall i | 1 <= i < |comps|
        ensures OnlyOneVertices(comps[i]) == Ok(r[i])
      {
        assert comps[i] == comps[1..][i - 1] && r[i] == ps[i - 1];
      }
    }
  }

  /** A failure is the exception of the first component whose fields fail. */
  lemma {:induction false} FourVerticesFirstFailure(comps: seq<seq<string>>)
    requires FourVertices(comps).Err?
    ensures FirstComponentFailure(comps, FourVertices(comps).error)
  {
    var e := FourVertices(comps).error;
    if OnlyOneVertices(comps[0]).Err? {
      assert ComponentFailsAt(comps, 0, e);
    } else {
      FourVerticesFirstFailure(comps[1..]);
      var k :| 0 <= k < |comps| - 1 && ComponentFailsAt(comps[1..], k, e);
      assert forall i :: 1 <= i < |comps| ==> comps[i] == comps[1..][i - 1];
      assert ComponentFailsAt(comps, k + 1, e);
    }
  }

  // ---------------------------------------------------------------------------
  // Cyclic indices and list sizes
  // ---------------------------------------------------------------------------

  /** The index after `k` around a closed polygon of `m` vertices, `(k + 1) % m`. */
  function Succ(k: nat, m: nat): (j: nat)
    requires k < m
    ensures j < m
  {
    if k + 1 == m then 0 else k + 1
  }

  /** `sum(len(sublist) for sublist in xss)`. */
  function TotalSize<T>(xss: seq<seq<T>>): nat {
    if |xss| == 0 then 0 else |xss[0]| + TotalSize(xss[1..])
  }
}
